=== FILE: README.md ===
# Academic portal core in Dafny

This project models the logic at the heart of a single-page academic portal
(`index.tsx`). The modelled parts are:

- the small Markdown renderer that formats the assistant's answers (`markdownToHtml`);
- the start-up configuration, including the `CREDIT_PACKAGES` parser (`parseCreditPackages`, `APP_CONFIG`);
- the student's academic assistant, with its two tools and the function-call dispatch of `handleSendMessage`;
- credit charging (`handleUseCredit`);
- the administrator's create/delete/update handlers;
- the course editor's exercise form and its conversion of generated quizzes;
- navigation and the view-prefix routing of the main screen.

Everything is pure functions over immutable datatypes. The model replaces
React state setters with functions from the old state to the new one.
Everything outside the program becomes a parameter. That covers the language
model's replies, `Date.now()` ids, the current ISO date and JavaScript's
`toLowerCase`.

Modules, one file each:

- `Wrappers`: `Option` and `Result`.
- `Text`: JavaScript string helpers.
  - `trim`, `split` and `join` for a one-character separator;
  - `parseInt(s, 10)`;
  - the decimal rendering of integers.
- `Seqs`: `filter`, and `find`, `map`-replace and `filter`-remove by key.
- `Markdown`: escaping, line classification and the line loop that fills the HTML buffer.
- `MarkdownHtml`: the rendered string.
  - what "safe HTML" means here;
  - the empty-paragraph removal;
  - the bold pass;
  - `markdownToHtml` itself.
- `Config`: `parseCreditPackages` and `APP_CONFIG`.
- `Exercises`: exercises, the manual exercise form, removal, and quiz conversion.
- `Catalog`: users, courses and announcements, plus the built-in data, schedules and office hours.
- `Assistant`: the tools, the call dispatch and one press of the send button.
- `App`: the top-level state.
  - charging;
  - the assistant as wired to the charge;
  - the administrator's handlers;
  - navigation and routing.

## Model

| member | source | states |
|---|---|---|
| Markdown.EscapeClean | index.tsx:116 | escaped text holds no `<` or `>`; text without them is unchanged |
| Markdown.EscapeRoundTrip | index.tsx:116 | decoding the two entities recovers any text that has no `&` |
| Markdown.EscapeConflatesAmpersand | index.tsx:116 | `<` and a literal `&lt;` escape to the same text, so escaping is not injective once `&` occurs |
| Markdown.EscapeLength | index.tsx:116 | each `<` and `>` grows the text by exactly three characters; nothing else changes length |
| Markdown.EscapeConcat | index.tsx:116 | escaping distributes over concatenation, so the two global replaces act character by character |
| Markdown.NumberMarker | index.tsx:142 | the prefix matched by `^\d+\.\s` is empty, or digits, a dot and one whitespace character, which fixes its length |
| Markdown.NumberMarkerMatchesRegex | index.tsx:142-148 | the marker is found iff the line starts with digits, a dot and a whitespace character |
| Markdown.HeadingLevel | index.tsx:129-134 | a level 1-3 means the line starts with that many `#` and a space |
| Markdown.Classify | index.tsx:127-155 | the branch of the if-chain, in the source's order: a rule iff the trimmed line is `---`; a heading iff not a rule and a heading marker starts it; a bullet iff neither and it starts with `* `; a numbered item iff none of these and `^\d+\.\s` matches; blank iff the line is whitespace; each item carries the text after its marker |
| Markdown.ClassifyHeading | index.tsx:129-134 | `#`, `##` or `###` plus a space gives a heading of that level holding the rest of the line |
| Markdown.ClassifyBullet | index.tsx:135 | `* text` is a bullet item holding `text` |
| Markdown.NumberedItemText | index.tsx:142-148 | `12. ` is a four-character marker, and the numbered item holds the rest of the line |
| Markdown.StarTabIsText | index.tsx:135-150 | `*` followed by a tab is neither a bullet nor a numbered item but a paragraph line |
| Markdown.ParagraphLine | index.tsx:149-150 | a non-blank line that is no rule, heading or item is wrapped whole in a paragraph, after any open list is closed |
| Markdown.RenderEmptyIff | index.tsx:151-155 | only a blank entry renders as `''`, so the last-entry test detects exactly a previous blank |
| Markdown.CloseIfNotItemKeeps | index.tsx:123-126 | the close-on-non-item step keeps the buffer well formed and leaves the list open iff the line looks like an item |
| Markdown.OutsideListLines | index.tsx:123-134 | rules, headings and blank lines never pass the list-continuation test, so they always close an open list |
| Markdown.StepKeeps | index.tsx:122-156 | one loop iteration keeps the buffer well formed: tags balanced, blanks collapsed, paragraphs non-blank |
| Markdown.BlocksWellFormed | index.tsx:114-160 | the final buffer has balanced, never nested `ul`/`ol`, no leading or doubled blank entry, and no paragraph around a blank line |
| Markdown.BlocksClean | index.tsx:116-160 | after escaping, no text the renderer wraps in its own tags holds `<` or `>` |
| Markdown.SwitchClosesOldList | index.tsx:142-148 | a `1.` item right after bullets closes the `ul` before opening an `ol` |
| Markdown.BulletOpensList | index.tsx:135-141 | a bullet with no open list opens a `ul` and adds the item |
| Markdown.TabAfterStarStaysInList | index.tsx:123-150 | inside a list, `*` and a tab passes the close test but not the bullet test, so it becomes a paragraph inside the open list |
| Markdown.BulletThenTabLine | index.tsx:114-160 | `* a` then `*` and tab and `b` render as one `ul` holding an item and a paragraph |
| MarkdownHtml.Lines | index.tsx:116-118 | the split lines carry no `<`, `>` or newline |
| MarkdownHtml.StripIsIdentity | index.tsx:162 | the `<p>\s*</p>` removal changes nothing in a buffer whose paragraphs are non-blank and clean |
| MarkdownHtml.StripNeverFires | index.tsx:162-163 | the output equals the bold pass applied to the joined lines |
| MarkdownHtml.ClosingMarker | index.tsx:163 | the lazy `(.*?)` stops at the first `**` reached before any line terminator, and finds none exactly when every `**` from the start on lies past a line terminator |
| MarkdownHtml.BoldSpan | index.tsx:163 | a one-line span `**x**` with no `*` inside becomes `<strong>x</strong>`, and the pass goes on after it |
| MarkdownHtml.BoldKeepsSafe | index.tsx:163 | the bold pass keeps HTML safe |
| MarkdownHtml.BoldIdentity | index.tsx:163 | text without `*` passes the bold pass unchanged |
| MarkdownHtml.MarkdownToHtml | index.tsx:114-166 | empty input gives `''`; every output is safe HTML: each `<` begins one of the renderer's own tags and no `>` stands alone |
| Text.Trim | index.tsx:14 | empty iff the text is all whitespace; otherwise the result neither starts nor ends with whitespace |
| Text.TrimShape | index.tsx:14 | the result is a slice of the text with only whitespace cut off before and after it |
| Text.Split | index.tsx:118 | one piece more than separators, no piece holds the separator, and pieces draw only on the input |
| Text.JoinSplit | index.tsx:118 | joining the pieces with the separator gives back the text |
| Text.SplitJoin | index.tsx:118 | splitting the join of separator-free pieces gives back the pieces |
| Text.ParseInt | index.tsx:16-17 | `NaN` exactly when no digits follow the leading whitespace and the optional sign |
| Text.ParseShowInt | index.tsx:16-17 | `parseInt` reads back any rendered integer, whatever non-digit text follows |
| Config.ColorOf | index.tsx:12 | a name maps to a colour iff it is one of the four palette names |
| Config.FirstColor | index.tsx:18 | the first field naming a colour, or none iff no field names one |
| Config.ParsePackageFields | index.tsx:13-21 | the colour is the first one named, otherwise the palette cycled by position; popular iff some field is `popular`; a missing second field gives no credits |
| Config.FirstNamedColorWins | index.tsx:13-21 | `20:200:blue:green` takes blue, the first colour named |
| Config.ParseCreditPackages | index.tsx:9-26 | `null` iff the variable is unset or empty; otherwise package `i` is the parse of the `i`-th comma-separated entry at position `i` |
| Config.DefaultNumbers | index.tsx:30-31 | the default cost and starting credits parse as 1 and 20 |
| Config.LoadConfig | index.tsx:28-37 | each unset or empty variable takes its default; a set model name is kept, set cost and credit values are read by `parseInt`, and a non-empty package list gives package `i` parsed from entry `i` |
| Config.ParseFormatPackage | index.tsx:13-21 | an entry written from a package with numeric price and credits parses back to that package, at any position |
| Config.ParseFormat | index.tsx:9-26 | a non-empty list of such packages written out comma-separated parses back to the same list |
| Exercises.Reset | index.tsx:940-945 | after an add the form keeps its type; question and answer are emptied, the four option fields are emptied and the first option is checked |
| Exercises.FilledOptions | index.tsx:927 | exactly the non-blank fields are kept (order: `Exercises.FilledOptionsKeepsOrder`) |
| Exercises.FilledOptionsKeepsOrder | index.tsx:927 | the filter distributes over concatenation and keeps a single field iff it is filled, so the kept fields stay in order with their repetitions |
| Exercises.AddExercise | index.tsx:919-939 | ignored iff the question is blank or a text answer is blank; alerted iff fewer than two fields are filled or the checked index falls past the filled ones; the stored answer is read from the unfiltered fields |
| Exercises.BlankAnswerAccepted | index.tsx:927-937 | a blank checked field ahead of two filled ones is accepted, and its blank answer is not among the stored options |
| Exercises.FilledAnswerRefused | index.tsx:927-931 | a filled checked field after a blank one is refused |
| Exercises.AddExerciseIntended | index.tsx:919-939 | with the check on the checked field itself, every stored multiple-choice answer is one of its options |
| Exercises.IntendedAgreesWithoutBlanks | index.tsx:927-937 | when no field is blank, the corrected and the written check agree |
| Exercises.Submit | index.tsx:919-946 | the corrected handler, whose check requires the checked field itself to be filled: exactly when that check accepts, the new exercise is appended and the form reset; otherwise nothing changes; every answer stays among its options |
| Exercises.SubmitAsWritten | index.tsx:919-946 | the handler as written: exactly when the written check accepts, the new exercise is appended and the form reset; otherwise nothing changes |
| Exercises.SubmitAsWrittenBreaksAnswers | index.tsx:927-946 | the written check can store an exercise whose answer is not an option |
| Exercises.RemoveExercise | index.tsx:953-955 | exactly the exercises with a different id remain, and answers stay listed (order: `Exercises.RemoveExerciseKeepsOrder`) |
| Exercises.RemoveExerciseKeepsOrder | index.tsx:953-955 | removal distributes over concatenation and keeps a single exercise iff its id differs, so the rest stay in order with their repetitions |
| Exercises.Lookup | index.tsx:650 | `q.options[q.answer]` is undefined iff no key matches, else a value stored under that key |
| Exercises.QuizToDrafts | index.tsx:645-653 | one draft per question, with its question and option texts; the answer is missing iff the answer key names no option |
| Exercises.DraftAnswerIsOption | index.tsx:645-653 | with distinct keys, the answer key's text is the draft's answer and one of its options |
| Catalog.CatalogComplete | index.tsx:53-84 | every built-in course has a non-empty schedule and a teacher with non-empty office hours |
| Catalog.InitialExercisesListed | index.tsx:54-55 | the built-in multiple-choice exercises list their answers among their options |
| Assistant.FindCourse | index.tsx:359 | the first course equal to the name under the case mapping; none iff no course matches |
| Assistant.CourseSchedule | index.tsx:358-364 | when no course matches, the "not found" text; otherwise the schedule stored for the first matching course's code when it is there and non-empty, else the "no schedule" text |
| Assistant.ResolveCalls | index.tsx:424-437 | fails iff some registered call throws; otherwise one response per registered call, in order, and unregistered calls are skipped |
| Assistant.SomeToolIffResponses | index.tsx:438-440 | the second request is sent iff at least one call names a registered tool |
| Assistant.Converse | index.tsx:421-441 | one or two requests, the first the user's text; a second exactly when the tool calls resolve to a non-empty list of results |
| Assistant.Send | index.tsx:378-454 | blank input, a pending reply or no credits change nothing; otherwise the user's and one more message are appended, input cleared, loading off, and the credit callback runs iff that message is the assistant's, else it is the error text |
| Assistant.ScheduleOfCatalogCourse | index.tsx:358-364 | a built-in course named by its own name yields its schedule table entry |
| Assistant.UnknownCourse | index.tsx:358-364 | a name matching no built-in course yields "not found" |
| Assistant.OfficeHoursOfCatalogTeacher | index.tsx:366-368 | a built-in teacher yields their office hours; a missing name yields the message naming `undefined` |
| Assistant.FailedRequestReportsError | index.tsx:447-450 | a failed first request ends in the error message, with one request and no credit used |
| Assistant.UnregisteredCallsAnswerDirectly | index.tsx:424-445 | a reply calling no registered tool is shown as is after one request, and the credit callback runs |
| Assistant.ToolRoundTrip | index.tsx:421-445 | registered calls that all succeed send their results in order in a second request, whose text is shown, and the credit callback runs |
| Assistant.SecondRequestFailureReportsError | index.tsx:438-450 | when the tools succeed but the request carrying their results fails, the error message ends the turn after two requests and no credit is spent |
| Assistant.ThrowingToolReportsError | index.tsx:427-450 | a throwing registered call ends in the error message without a second request or a charge |
| App.UseCredit | index.tsx:1296-1305 | with a user holding at least the cost, the balance drops by the cost, stays non-negative, and every user entry with that id is replaced; otherwise nothing changes |
| App.ChargedUserLookup | index.tsx:1296-1305 | after a charge, the user's id finds the charged record and every other id finds what it found before |
| App.AssistantTurn | index.tsx:355 | the chat sees the user's balance; an answer charges exactly the cost when the balance covers it, and leaves the whole state as it was when it does not |
| App.FreeAnswerBelowCost | index.tsx:380 | with any balance above 0 but below the cost, a turn answers and the state stays as it was (3 credits and a cost of 5 stay 3) |
| App.AssistantTurnIntended | index.tsx:1296-1305 | when the cost cannot be charged nothing happens; each answer costs exactly the cost; balances stay non-negative |
| App.AddUser | index.tsx:1318-1321 | appends a student with the given fields and no credits; earlier users are kept |
| App.DeleteUser | index.tsx:1322-1324 | exactly the users with a different id remain (order: `App.DeleteUserKeepsOrder`) |
| App.DeleteUserKeepsOrder | index.tsx:1322-1324 | removal distributes over concatenation and keeps a single user iff its id differs, so the rest stay in order with their repetitions |
| App.AddCourse | index.tsx:1325-1328 | appends a course with empty content and no exercises; earlier courses are kept |
| App.DeleteCourse | index.tsx:1329-1331 | exactly the courses with a different id remain (order: `App.DeleteCourseKeepsOrder`) |
| App.DeleteCourseKeepsOrder | index.tsx:1329-1331 | removal distributes over concatenation and keeps a single course iff its id differs, so the rest stay in order with their repetitions |
| App.UpdateCourse | index.tsx:1332-1334 | every course with the updated id is replaced, the others are kept, and the length is unchanged |
| App.AddAnnouncement | index.tsx:1335-1339 | prepends the announcement, dated with the first ten characters of the timestamp |
| App.UserLookups | index.tsx:1318-1324 | a new id finds the added student; a deleted id finds nothing; other ids are unaffected |
| App.CourseLookups | index.tsx:1325-1331 | a new id finds the added course; a deleted id finds nothing; other ids are unaffected |
| App.UpdateLookups | index.tsx:1332-1334 | after an update, lookups by the updated id find the new record when one existed; other ids are unaffected |
| App.Navigate | index.tsx:1307-1315 | `course-detail` with a non-zero id selects it and shows `courses/<id>`; anything else shows the view and clears the selection; the data is untouched |
| App.BaseView | index.tsx:1342 | the part before the first `/`: a prefix of the view with no `/`, followed in the view by a `/` unless it is the whole view |
| App.Route | index.tsx:1341-1377 | the two `switch`es: a student sees the selected course under `courses`, the announcement list, the assistant or the purchase screen for their bases, and the student dashboard for any other view; an admin sees user, course or announcement management for `students`, `courses` and `announcements`, and the admin dashboard otherwise |
| App.OpenCourseShowsIt | index.tsx:1307-1350 | opening a course from the student dashboard routes to that course's screen |
| App.NavigateToView | index.tsx:1307-1350 | any other navigation shows the named view with no selection, so a bare `courses` view shows no course |

## Left out

- The server functions, payments and the Gemini client library are not part of this model. The model's replies are parameters of `Assistant.Send`. A failed request is a `Failure`.
- Rendering, CSS, `localStorage` persistence, login and the purchase flow are user interface and I/O, so they are not modelled.
- The `AdminAssistant` chat (content and quiz generation) is not modelled. Only its quiz conversion (`handleAddQuizAsExercises`) is.
- `handleAddGeneratedExercises` is left out. Its ids are `Date.now() + Math.random()`, which is randomness.
- `Date.now()` ids and the ISO timestamp are parameters. `toLowerCase` is a parameter of the tools, since Unicode case mapping is not modelled.
- The message kinds `tool_result` and the optional `data` field are not used by the modelled code.
- `Assistant.TeacherAvailability`: names that JavaScript objects inherit (`constructor`, `toString`, ...) are not modelled. Neither are non-string tool arguments. Only a missing `courseName` is modelled as a throw.
- `Assistant.ResolveCalls`: names every JavaScript object inherits (`toString`, `constructor`, `hasOwnProperty`, ...) pass the `availableTools[call.name]` lookup in the source and are invoked, and `__proto__` makes the call throw; the model treats every name other than the two tools as unregistered and skips it. A tool call with a non-object `args` is not modelled either: calls carry string-valued maps.
- `Assistant.Throws`: a missing `courseName` throws inside the `find` callback, which runs only on a non-empty course list; the model says it always throws, which holds for the built-in catalogue.
- `Exercises.QuizToDrafts`: `Object.values` (index.tsx:649) lists integer-like keys first, in ascending order, and then the others in insertion order; the model keeps every option in insertion order, so it differs for quizzes whose option keys look like integers.
- `Assistant.Send`: the `catch` block's `console.error` and the `finally` block are folded into the returned chat. The React update batching is not modelled.
- `Config.ParseCreditPackages`: the `catch` branch is unreachable for string input and is not modelled.
- `Text.ParseInt`: numbers are unbounded. Precision loss above 2^53 and the distinction of `-0` are not modelled.
- `Config.ParseFormat`: the round trip is stated only for packages with numeric price and credits. A `NaN` field cannot be written back as text that parses to `NaN` at the same place.
- `Markdown.EscapeRoundTrip`: it holds only for text without `&`. `Markdown.EscapeConflatesAmpersand` shows why no stronger statement holds.
- `Exercises.AddExercise`: the form's checked index is assumed to name one of its option fields, as the form's radio buttons guarantee. The requirement is named `WellFormed`.
- `App.AssistantTurn`: the `credits || 0` default at index.tsx:1354 is not needed, because credits are always numbers here.
- `MarkdownHtml.MarkdownToHtml`: the safety property speaks of the tags and angle brackets only. Character references (`&...;`) pass through unchanged, as in the source.

## Findings

| source | as written | input that shows it | evidently intended | confidence | as-written member | corrected member |
|---|---|---|---|---|---|---|
| index.tsx:927-937 | the guard checks `validOptions[correctOptionIndex]` in the filtered options, but the answer is taken from the unfiltered `newExerciseOptions[correctOptionIndex]` | fields `['', 'a', 'b', '']` with the first one checked: accepted, and the answer `''` is not among the options `['a', 'b']` | the checked field itself must be filled, so the answer is one of the stored options | not executed; high | Exercises.AddExercise, Exercises.BlankAnswerAccepted, Exercises.SubmitAsWrittenBreaksAnswers | Exercises.AddExerciseIntended, Exercises.Submit |
| index.tsx:355 | the assistant is enabled when `credits > 0`, but `handleUseCredit` charges only when `credits >= cost` (index.tsx:1297-1298) | 3 credits and `ASSISTANT_CREDIT_COST=5`: the answer is shown and the balance stays 3, forever | the assistant is available only when the cost can be charged, so each answer costs the configured amount | not executed; medium | App.AssistantTurn, App.FreeAnswerBelowCost | App.AssistantTurnIntended |

=== FILE: app.dfy ===
/** The application shell (index.tsx, App): charging a credit for an
    assistant answer, the administrator's create/update/delete handlers,
    and navigation between views. Fresh identifiers (`Date.now()`) and the
    current date are parameters. */
module App {
  import opened Wrappers
  import opened Text
  import opened Seqs
  import opened Catalog
  import opened Assistant

  /** The state the handlers below touch. */
  datatype State = State(
    current: Option<User>,
    users: seq<User>,
    courses: seq<Course>,
    announcements: seq<Announcement>,
    view: string,
    selected: Option<int>)

  /** `handleUseCredit`: charges `cost` when the signed-in user holds at
      least that much; `None` stands for a cost that did not parse (`NaN`),
      which no balance reaches. The charged user replaces every entry with
      the same id. */
  function UseCredit(s: State, cost: Option<int>): (r: State)
    ensures Charges(s, cost) ==>
              r.current.Some? && r.current.value == s.current.value.(credits := s.current.value.credits - cost.value) &&
              r.current.value.credits >= 0 &&
              |r.users| == |s.users| &&
              (forall i | 0 <= i < |s.users| ::
                 r.users[i] == (if s.users[i].id == s.current.value.id then r.current.value else s.users[i]))
    ensures !Charges(s, cost) ==> r == s
    ensures r.courses == s.courses && r.announcements == s.announcements && r.view == s.view && r.selected == s.selected
  {
    if Charges(s, cost) then
      var updated := s.current.value.(credits := s.current.value.credits - cost.value);
      s.(current := Some(updated), users := ReplaceBy(UserId, s.users, updated))
    else s
  }

  predicate Charges(s: State, cost: Option<int>) {
    s.current.Some? && cost.Some? && s.current.value.credits >= cost.value
  }

  /** After a charge, looking the user up by id finds the charged record
      (when the list held them), and every other lookup is unchanged. */
  lemma ChargedUserLookup(s: State, cost: Option<int>, id: int)
    requires Charges(s, cost)
    ensures var r := UseCredit(s, cost);
      FindBy(UserId, r.users, s.current.value.id) ==
        (if FindBy(UserId, s.users, s.current.value.id).Some? then r.current else None) &&
      (id != s.current.value.id ==> FindBy(UserId, r.users, id) == FindBy(UserId, s.users, id))
  {
    var updated := s.current.value.(credits := s.current.value.credits - cost.value);
    assert UseCredit(s, cost).users == ReplaceBy(UserId, s.users, updated);
    assert UseCredit(s, cost).current == Some(updated);
    assert UserId(updated) == s.current.value.id;
    FindAfterReplace(UserId, s.users, updated, id);
  }

  /** One assistant turn as the application wires it: the chat sees the
      user's balance and, when it reports an answer, the application
      charges the configured cost. An answer is charged exactly the cost
      when the balance covers it, and is free when it does not. */
  function AssistantTurn(s: State, chat: Chat, cost: Option<int>, env: Tools,
                         first: Result<Reply, Fault>, second: Result<Reply, Fault>): (r: (State, Turn))
    requires s.current.Some?
    ensures r.1 == Send(chat, s.current.value.credits, env, first, second)
    ensures r.0 == (if r.1.creditUsed then UseCredit(s, cost) else s)
    ensures r.1.creditUsed && Charges(s, cost) ==>
              r.0.current == Some(s.current.value.(credits := s.current.value.credits - cost.value))
    ensures !(r.1.creditUsed && Charges(s, cost)) ==> r.0 == s
  {
    var t := Send(chat, s.current.value.credits, env, first, second);
    (if t.creditUsed then UseCredit(s, cost) else s, t)
  }

  /** As written, any balance that is positive but below the cost still gets
      answers, and they are free: the turn answers and the state is left as
      it was (with 3 credits and a cost of 5, the balance stays 3). */
  lemma FreeAnswerBelowCost(s: State, chat: Chat, cost: int, env: Tools, reply: Reply, second: Result<Reply, Fault>)
    requires s.current.Some? && 0 < s.current.value.credits < cost
    requires !IsBlank(chat.input) && !chat.loading
    requires forall i | 0 <= i < |reply.calls| :: !IsToolCall(reply.calls[i])
    ensures var r := AssistantTurn(s, chat, Some(cost), env, Success(reply), second);
      r.1.creditUsed && r.1.chat.messages[|chat.messages| + 1] == Message(AssistantSender, reply.text) &&
      r.0 == s
  {
    UnregisteredCallsAnswerDirectly(chat, s.current.value.credits, env, reply, second);
  }

  /** The turn with the balance check the charge implies: the assistant is
      available only when the cost can be charged, so every answer costs
      exactly `cost`. */
  function AssistantTurnIntended(s: State, chat: Chat, cost: Option<int>, env: Tools,
                                 first: Result<Reply, Fault>, second: Result<Reply, Fault>): (r: (State, Turn))
    requires s.current.Some?
    ensures !Charges(s, cost) ==> r == (s, Turn(chat, false, []))
    ensures r.1.creditUsed ==> r.0.current.Some? && r.0.current.value.credits == s.current.value.credits - cost.value
    ensures !r.1.creditUsed ==> r.0 == s
    ensures r.0.current.Some? && r.0.current.value.credits >= 0 <== s.current.value.credits >= 0 || r.1.creditUsed
  {
    if !Charges(s, cost) then (s, Turn(chat, false, []))
    else AssistantTurn(s, chat, cost, env, first, second)
  }

  /** `addUser`: a new student with no credits, appended. */
  function AddUser(users: seq<User>, id: int, name: string, email: string, password: string): (r: seq<User>)
    ensures |r| == |users| + 1 && r[..|users|] == users
    ensures r[|users|].id == id && r[|users|].role.Student? && r[|users|].credits == 0
    ensures r[|users|].name == name && r[|users|].email == email && r[|users|].password == password
  {
    users + [User(id, name, email, password, Student, 0)]
  }

  /** `deleteUser`: every user with that id goes, every other one stays. */
  function DeleteUser(users: seq<User>, id: int): (r: seq<User>)
    ensures forall i | 0 <= i < |r| :: r[i].id != id && r[i] in users
    ensures forall i | 0 <= i < |users| && users[i].id != id :: users[i] in r
  {
    RemoveBy(UserId, users, id)
  }

  /** `addCourse`: a new course with empty content and no exercises. */
  function AddCourse(courses: seq<Course>, id: int, name: string, code: string, teacher: string): (r: seq<Course>)
    ensures |r| == |courses| + 1 && r[..|courses|] == courses
    ensures r[|courses|].id == id && r[|courses|].name == name && r[|courses|].code == code && r[|courses|].teacher == teacher
    ensures r[|courses|].content == Content("", "") && r[|courses|].exercises == []
  {
    courses + [Course(id, name, code, teacher, Content("", ""), [])]
  }

  /** `deleteCourse`. */
  function DeleteCourse(courses: seq<Course>, id: int): (r: seq<Course>)
    ensures forall i | 0 <= i < |r| :: r[i].id != id && r[i] in courses
    ensures forall i | 0 <= i < |courses| && courses[i].id != id :: courses[i] in r
  {
    RemoveBy(CourseId, courses, id)
  }

  /** `updateCourse`: every course with the updated course's id is replaced. */
  function UpdateCourse(courses: seq<Course>, updated: Course): (r: seq<Course>)
    ensures |r| == |courses|
    ensures forall i | 0 <= i < |courses| :: r[i] == (if courses[i].id == updated.id then updated else courses[i])
  {
    ReplaceBy(CourseId, courses, updated)
  }

  /** `addAnnouncement`: dated with the first ten characters of the ISO
      timestamp (the calendar day) and put first. */
  function AddAnnouncement(anns: seq<Announcement>, id: int, text: string, isoNow: string): (r: seq<Announcement>)
    ensures |r| == |anns| + 1 && r[1..] == anns
    ensures r[0].id == id && r[0].text == text
    ensures r[0].date <= isoNow && |r[0].date| == (if |isoNow| < 10 then |isoNow| else 10)
  {
    var date := isoNow[..if |isoNow| < 10 then |isoNow| else 10];
    [Announcement(id, text, date)] + anns
  }

  /** `deleteUser` and `deleteCourse` keep the remaining entries in their
      order and with their repetitions: removal distributes over
      concatenation and keeps a single entry iff its id differs. */
  lemma DeleteUserKeepsOrder(a: seq<User>, b: seq<User>, u: User, id: int)
    ensures DeleteUser(a + b, id) == DeleteUser(a, id) + DeleteUser(b, id)
    ensures DeleteUser([u], id) == if u.id != id then [u] else []
  {
    RemoveByConcat(UserId, a, b, id);
    RemoveBySingle(UserId, u, id);
  }

  lemma DeleteCourseKeepsOrder(a: seq<Course>, b: seq<Course>, c: Course, id: int)
    ensures DeleteCourse(a + b, id) == DeleteCourse(a, id) + DeleteCourse(b, id)
    ensures DeleteCourse([c], id) == if c.id != id then [c] else []
  {
    RemoveByConcat(CourseId, a, b, id);
    RemoveBySingle(CourseId, c, id);
  }

  /** Adding a user with a fresh id makes it findable; deleting a user makes
      its id unfindable; other lookups are unaffected by either. */
  lemma UserLookups(users: seq<User>, id: int, name: string, email: string, password: string, other: int)
    requires FindBy(UserId, users, id).None?
    ensures FindBy(UserId, AddUser(users, id, name, email, password), id) == Some(User(id, name, email, password, Student, 0))
    ensures FindBy(UserId, DeleteUser(users, id), id).None?
    ensures other != id ==>
              FindBy(UserId, AddUser(users, id, name, email, password), other) == FindBy(UserId, users, other) &&
              FindBy(UserId, DeleteUser(users, id), other) == FindBy(UserId, users, other)
  {
    FindAfterAppend(UserId, users, User(id, name, email, password, Student, 0), other);
    FindAfterRemove(UserId, users, id, other);
  }

  /** The same for courses, and an update is seen by lookups of its id only. */
  lemma CourseLookups(courses: seq<Course>, c: Course, other: int)
    requires FindBy(CourseId, courses, c.id).None?
    ensures FindBy(CourseId, AddCourse(courses, c.id, c.name, c.code, c.teacher), c.id).Some?
    ensures FindBy(CourseId, DeleteCourse(courses, c.id), c.id).None?
    ensures other != c.id ==>
              FindBy(CourseId, AddCourse(courses, c.id, c.name, c.code, c.teacher), other) == FindBy(CourseId, courses, other) &&
              FindBy(CourseId, DeleteCourse(courses, c.id), other) == FindBy(CourseId, courses, other)
  {
    FindAfterAppend(CourseId, courses, Course(c.id, c.name, c.code, c.teacher, Content("", ""), []), other);
    FindAfterRemove(CourseId, courses, c.id, other);
  }

  lemma UpdateLookups(courses: seq<Course>, updated: Course, other: int)
    ensures FindBy(CourseId, UpdateCourse(courses, updated), updated.id) ==
              (if FindBy(CourseId, courses, updated.id).Some? then Some(updated) else None)
    ensures other != updated.id ==> FindBy(CourseId, UpdateCourse(courses, updated), other) == FindBy(CourseId, courses, other)
  {
    FindAfterReplace(CourseId, courses, updated, other);
  }

  /** `handleNavigate`: a course detail with a non-zero id becomes the view
      `courses/<id>` and selects that course; anything else is taken as a
      view name and clears the selection. */
  function Navigate(s: State, view: string, id: Option<int>): (r: State)
    ensures view == "course-detail" && id.Some? && id.value != 0 ==>
              r.selected == id && r.view == "courses/" + ShowInt(id.value)
    ensures !(view == "course-detail" && id.Some? && id.value != 0) ==> r.selected.None? && r.view == view
    ensures r.current == s.current && r.users == s.users && r.courses == s.courses && r.announcements == s.announcements
  {
    if view == "course-detail" && id.Some? && id.value != 0 then
      s.(selected := id, view := "courses/" + ShowInt(id.value))
    else
      s.(selected := None, view := view)
  }

  /** The part of a view before its first `/`, which picks the screen and
      the highlighted sidebar entry. */
  function BaseView(view: string): (r: string)
    ensures r <= view && '/' !in r
    ensures |r| < |view| ==> view[|r|] == '/'
    ensures '/' !in view ==> r == view
  {
    FirstPiece(view);
    Split(view, '/')[0]
  }

  lemma FirstPiece(view: string)
    ensures Split(view, '/')[0] <= view
    ensures |Split(view, '/')[0]| < |view| ==> view[|Split(view, '/')[0]|] == '/'
    ensures '/' !in view ==> Split(view, '/')[0] == view
  {
    JoinSplit(view, '/');
    JoinEnds(Split(view, '/'), "/");
    if '/' !in view {
      SplitSepFree(view, '/');
    }
  }

  datatype Screen =
    | StudentDashboard
    | CourseDetail(course: Option<Course>)
    | AnnouncementList
    | AssistantChat
    | PurchaseCredits
    | AdminDashboard
    | UserManagement
    | CourseManagement
    | AnnouncementManagement

  /** `renderContent`: the screen for the signed-in role and the base view;
      unknown views show the role's dashboard. */
  function Route(role: Role, view: string, courses: seq<Course>, selected: Option<int>): (r: Screen)
    ensures role.Student? ==> r in {StudentDashboard, AnnouncementList, AssistantChat, PurchaseCredits} || r.CourseDetail?
    ensures role.Admin? ==> r in {AdminDashboard, UserManagement, CourseManagement, AnnouncementManagement}
    ensures r.CourseDetail? ==> (BaseView(view) == "courses" &&
              (r.course.Some? ==> selected.Some? && r.course.value in courses && r.course.value.id == selected.value))
    ensures role.Student? && BaseView(view) == "courses" ==> r == CourseDetail(SelectedCourse(courses, selected))
    ensures role.Student? && BaseView(view) == "announcements" ==> r == AnnouncementList
    ensures role.Student? && BaseView(view) == "assistant" ==> r == AssistantChat
    ensures role.Student? && BaseView(view) == "purchase" ==> r == PurchaseCredits
    ensures (role.Student? && BaseView(view) != "courses" && BaseView(view) != "announcements" &&
             BaseView(view) != "assistant" && BaseView(view) != "purchase") ==> r == StudentDashboard
    ensures role.Admin? && BaseView(view) == "students" ==> r == UserManagement
    ensures role.Admin? && BaseView(view) == "courses" ==> r == CourseManagement
    ensures role.Admin? && BaseView(view) == "announcements" ==> r == AnnouncementManagement
    ensures (role.Admin? && BaseView(view) != "students" && BaseView(view) != "courses" &&
             BaseView(view) != "announcements") ==> r == AdminDashboard
  {
    var base := BaseView(view);
    match role
    case Student =>
      if base == "courses" then CourseDetail(SelectedCourse(courses, selected))
      else if base == "announcements" then AnnouncementList
      else if base == "assistant" then AssistantChat
      else if base == "purchase" then PurchaseCredits
      else StudentDashboard
    case Admin =>
      if base == "students" then UserManagement
      else if base == "courses" then CourseManagement
      else if base == "announcements" then AnnouncementManagement
      else AdminDashboard
  }

  /** `courses.find(c => c.id === selectedCourseId)`; no course matches a
      cleared selection. */
  function SelectedCourse(courses: seq<Course>, selected: Option<int>): Option<Course> {
    match selected
    case None => None
    case Some(id) => FindBy(CourseId, courses, id)
  }

  /** Opening a course from a student's dashboard shows that course. */
  lemma {:induction false} OpenCourseShowsIt(s: State, id: int)
    requires id != 0
    ensures var r := Navigate(s, "course-detail", Some(id));
      Route(Student, r.view, r.courses, r.selected) == CourseDetail(FindBy(CourseId, s.courses, id))
  {
    CoursesViewBase(id);
  }

  lemma CoursesViewBase(id: int)
    ensures BaseView("courses/" + ShowInt(id)) == "courses"
  {
    ShowIntShape(id);
    assert '/' !in ShowInt(id);
    assert "courses/" + ShowInt(id) == "courses" + (['/'] + ShowInt(id));
    SplitPrefix("courses", ShowInt(id), '/');
  }

  /** Any other navigation shows the named view's screen with no course
      selected. */
  lemma NavigateToView(s: State, role: Role, view: string)
    requires view != "course-detail"
    ensures var r := Navigate(s, view, None);
      r.view == view && r.selected.None? &&
      (role.Student? && BaseView(view) == "courses" ==> Route(role, r.view, r.courses, r.selected) == CourseDetail(None))
  {
  }
}

=== FILE: assistant.dfy ===
/** The academic assistant (index.tsx, AcademicAssistant): its two local
    tools, the dispatch of the model's function calls to them, and one
    round of the chat. The language model is not modelled: its replies are
    parameters of the turn, and the tools read their data from a `Tools`
    value whose `lower` stands for JavaScript's
    `toLowerCase`. */
module Assistant {
  import opened Wrappers
  import opened Text
  import opened Seqs
  import opened Catalog

  datatype Sender = UserSender | AssistantSender | ErrorSender | ToolResultSender

  datatype Message = Message(sender: Sender, text: string)

  const Greeting: Message :=
    Message(AssistantSender, "Olá! Como posso ajudar com seus estudos hoje? Pergunte-me sobre horários de aulas ou de professores.")

  const ErrorText: string := "Desculpe, não consegui processar sua solicitação. Tente novamente."

  /** A function call requested by the model, with its string arguments. */
  datatype Call = Call(name: string, args: map<string, string>)

  /** A model reply: its text (empty when it carries none) and the function
      calls it requests. */
  datatype Reply = Reply(text: string, calls: seq<Call>)

  datatype ToolResponse = ToolResponse(name: string, result: string)

  /** What the chat sends to the model: the user's text, or the tool results. */
  datatype Request = UserText(text: string) | ToolResponses(responses: seq<ToolResponse>)

  /** A failed step: the model request or a tool threw. */
  datatype Fault = Fault

  const ScheduleTool: string := "getCourseSchedule"
  const OfficeHoursTool: string := "getTeacherAvailability"

  /** The names the assistant registers as tools. */
  predicate IsTool(name: string) {
    name == ScheduleTool || name == OfficeHoursTool
  }

  predicate IsToolCall(c: Call) {
    IsTool(c.name)
  }

  function CourseNotFound(courseName: string): string {
    "Curso \"" + courseName + "\" não encontrado."
  }

  function NoSchedule(courseName: string): string {
    "Não encontrei um horário para " + courseName + "."
  }

  function NoOfficeHours(teacherName: string): string {
    "Não encontrei horários de atendimento para " + teacherName + "."
  }

  /** What the tools read: the course list, the schedule and office-hour
      tables, and the case mapping used to compare course names. */
  datatype Tools = Tools(courses: seq<Course>, schedules: map<string, string>, officeHours: map<string, string>, lower: string -> string)

  /** The tools as the application defines them, over its built-in data. */
  function BuiltIn(lower: string -> string): Tools {
    Tools(InitialCourses, Schedules, OfficeHours, lower)
  }

  /** Course `i` is the first whose name equals `courseName` under the case
      mapping. */
  predicate FirstMatch(env: Tools, courseName: string, i: int) {
    0 <= i < |env.courses| && env.lower(env.courses[i].name) == env.lower(courseName) &&
    forall j | 0 <= j < i :: env.lower(env.courses[j].name) != env.lower(courseName)
  }

  /** `initialCourses.find(...)`: the first course whose name matches
      case-insensitively. */
  function FindCourse(env: Tools, courseName: string): (r: Option<Course>)
    ensures r.None? <==> forall i | 0 <= i < |env.courses| :: env.lower(env.courses[i].name) != env.lower(courseName)
    ensures r.Some? ==> r.value in env.courses && env.lower(r.value.name) == env.lower(courseName)
    ensures forall i | FirstMatch(env, courseName, i) :: r == Some(env.courses[i])
  {
    var key := (c: Course) => env.lower(c.name);
    FindByFirst(key, env.courses, env.lower(courseName));
    FindBy(key, env.courses, env.lower(courseName))
  }

  /** The `getCourseSchedule` tool. With no matching course the answer says so;
      otherwise it is the first matching course's schedule, or a message naming
      the course when that schedule is missing or empty. */
  function CourseSchedule(env: Tools, courseName: string): (r: string)
    ensures (forall i | 0 <= i < |env.courses| :: env.lower(env.courses[i].name) != env.lower(courseName)) ==>
              r == CourseNotFound(courseName)
    ensures forall i | FirstMatch(env, courseName, i) ::
              var code := env.courses[i].code;
              r == (if code in env.schedules && env.schedules[code] != "" then env.schedules[code] else NoSchedule(courseName))
    ensures r == CourseNotFound(courseName) || r == NoSchedule(courseName) || r in env.schedules.Values
  {
    match FindCourse(env, courseName)
    case None => CourseNotFound(courseName)
    case Some(c) =>
      if c.code in env.schedules && env.schedules[c.code] != "" then env.schedules[c.code] else NoSchedule(courseName)
  }

  /** The `getTeacherAvailability` tool. A missing argument reads as the
      text "undefined", as JavaScript's template literal renders it. */
  function TeacherAvailability(env: Tools, teacherName: Option<string>): (r: string)
    ensures var name := teacherName.GetOr("undefined");
      r == if name in env.officeHours && env.officeHours[name] != "" then env.officeHours[name] else NoOfficeHours(name)
    ensures r != ""
  {
    var name := teacherName.GetOr("undefined");
    if name in env.officeHours && env.officeHours[name] != "" then env.officeHours[name] else NoOfficeHours(name)
  }

  function Arg(c: Call, key: string): Option<string> {
    if key in c.args then Some(c.args[key]) else None
  }

  /** The schedule tool lower-cases its argument inside the `find` callback,
      so it throws when `courseName` is missing. That holds for the built-in
      catalogue, which is non-empty: on an empty course list the callback
      never runs and the tool would answer "not found" instead. */
  predicate Throws(c: Call) {
    c.name == ScheduleTool && "courseName" !in c.args
  }

  /** The result of a registered tool that does not throw. */
  function Answer(env: Tools, c: Call): string
    requires IsToolCall(c) && !Throws(c)
  {
    if c.name == ScheduleTool then CourseSchedule(env, c.args["courseName"])
    else TeacherAvailability(env, Arg(c, "teacherName"))
  }

  /** Runs one registered tool on the call's arguments. */
  function Invoke(env: Tools, c: Call): (r: Result<string, Fault>)
    requires IsToolCall(c)
    ensures r.Failure? <==> Throws(c)
    ensures r.Success? ==> r.value == Answer(env, c)
  {
    if Throws(c) then Failure(Fault) else Success(Answer(env, c))
  }

  /** `responses` answers the registered, non-throwing `tools` one to one,
      in order. */
  predicate Responds(env: Tools, tools: seq<Call>, responses: seq<ToolResponse>) {
    |responses| == |tools| &&
    forall i | 0 <= i < |tools| ::
      IsToolCall(tools[i]) && !Throws(tools[i]) &&
      responses[i] == ToolResponse(tools[i].name, Answer(env, tools[i]))
  }

  /** The dispatch loop: each call naming a registered tool yields one
      response, in order; other calls are skipped; a throwing tool aborts
      the whole turn. */
  function ResolveCalls(env: Tools, calls: seq<Call>): (r: Result<seq<ToolResponse>, Fault>)
    ensures r.Failure? <==> exists i | 0 <= i < |calls| :: IsToolCall(calls[i]) && Throws(calls[i])
    ensures r.Success? ==> Responds(env, Filter(IsToolCall, calls), r.value)
    decreases |calls|
  {
    if |calls| == 0 then Success([])
    else
      var rest := ResolveCalls(env, calls[1..]);
      ThrowsStep(calls);
      if !IsToolCall(calls[0]) then
        FilterSkip(IsToolCall, calls);
        rest
      else
        match Invoke(env, calls[0])
        case Failure(e) => Failure(e)
        case Success(result) =>
          match rest
          case Failure(e) => Failure(e)
          case Success(responses) =>
            FilterTake(IsToolCall, calls);
            RespondsCons(env, calls[0], Filter(IsToolCall, calls[1..]), responses);
            Success([ToolResponse(calls[0].name, result)] + responses)
  }

  /** Some registered call throws iff the first one does or a later one does. */
  lemma ThrowsStep(calls: seq<Call>)
    requires |calls| > 0
    ensures (exists i | 0 <= i < |calls| :: IsToolCall(calls[i]) && Throws(calls[i])) <==>
            (IsToolCall(calls[0]) && Throws(calls[0])) ||
            (exists i | 0 <= i < |calls[1..]| :: IsToolCall(calls[1..][i]) && Throws(calls[1..][i]))
  {
    if exists i | 0 <= i < |calls| :: IsToolCall(calls[i]) && Throws(calls[i]) {
      var i :| 0 <= i < |calls| && IsToolCall(calls[i]) && Throws(calls[i]);
      if i > 0 {
        assert calls[1..][i - 1] == calls[i];
      }
    }
  }

  lemma RespondsCons(env: Tools, c: Call, tools: seq<Call>, responses: seq<ToolResponse>)
    requires IsToolCall(c) && !Throws(c) && Responds(env, tools, responses)
    ensures Responds(env, [c] + tools, [ToolResponse(c.name, Answer(env, c))] + responses)
  {
    var t, rs := [c] + tools, [ToolResponse(c.name, Answer(env, c))] + responses;
    forall i | 0 <= i < |t|
      ensures IsToolCall(t[i]) && !Throws(t[i]) && rs[i] == ToolResponse(t[i].name, Answer(env, t[i]))
    {
      if i > 0 {
        assert t[i] == tools[i - 1] && rs[i] == responses[i - 1];
      }
    }
  }

  /** The chat panel's state. */
  datatype Chat = Chat(messages: seq<Message>, input: string, loading: bool)

  const InitialChat: Chat := Chat([Greeting], "", false)

  /** The outcome of one send: the new chat, whether the credit callback
      ran, and the requests made to the model, in order. */
  datatype Turn = Turn(chat: Chat, creditUsed: bool, requests: seq<Request>)

  /** The send button does nothing for a blank input, while a reply is
      pending, or without credits. */
  predicate Ignored(chat: Chat, credits: int) {
    IsBlank(chat.input) || chat.loading || credits <= 0
  }

  /** The exchange with the model after the user's message: the text of the
      final reply (or a failure) and the requests sent. A second request
      carries the tool results; its own calls are not followed. */
  function Converse(env: Tools, input: string, first: Result<Reply, Fault>, second: Result<Reply, Fault>): (r: (Result<string, Fault>, seq<Request>))
    ensures 1 <= |r.1| <= 2 && r.1[0] == UserText(input)
    ensures |r.1| == 2 ==> (first.Success? && r.1[1].ToolResponses? && |r.1[1].responses| > 0 &&
              ResolveCalls(env, first.value.calls) == Success(r.1[1].responses))
    ensures first.Failure? ==> r.0.Failure?
    ensures (first.Success? && ResolveCalls(env, first.value.calls).Success? &&
             |ResolveCalls(env, first.value.calls).value| > 0) ==> |r.1| == 2
  {
    match first
    case Failure(e) => (Failure(e), [UserText(input)])
    case Success(reply) =>
      if |reply.calls| == 0 then (Success(reply.text), [UserText(input)])
      else
        match ResolveCalls(env, reply.calls)
        case Failure(e) => (Failure(e), [UserText(input)])
        case Success(responses) =>
          if |responses| == 0 then (Success(reply.text), [UserText(input)])
          else
            var answer := match second case Failure(e) => Failure(e) case Success(again) => Success(again.text);
            (answer, [UserText(input), ToolResponses(responses)])
  }

  /** One press of the send button. */
  function Send(chat: Chat, credits: int, env: Tools, first: Result<Reply, Fault>, second: Result<Reply, Fault>): (t: Turn)
    ensures Ignored(chat, credits) ==> t == Turn(chat, false, [])
    ensures !Ignored(chat, credits) ==>
              |t.chat.messages| == |chat.messages| + 2 &&
              t.chat.messages[..|chat.messages|] == chat.messages &&
              t.chat.messages[|chat.messages|] == Message(UserSender, chat.input) &&
              t.chat.input == "" && !t.chat.loading &&
              1 <= |t.requests| <= 2 && t.requests[0] == UserText(chat.input)
    ensures !Ignored(chat, credits) ==>
              (t.creditUsed <==> t.chat.messages[|chat.messages| + 1].sender.AssistantSender?) &&
              (!t.creditUsed <==> t.chat.messages[|chat.messages| + 1] == Message(ErrorSender, ErrorText))
  {
    if Ignored(chat, credits) then Turn(chat, false, [])
    else
      var (answer, requests) := Converse(env, chat.input, first, second);
      var reply := match answer
        case Success(text) => Message(AssistantSender, text)
        case Failure(_) => Message(ErrorSender, ErrorText);
      Turn(Chat(chat.messages + [Message(UserSender, chat.input), reply], "", false), answer.Success?, requests)
  }

  /** A built-in course, looked up by its own name, yields its schedule
      when no earlier course shares that name under the case mapping. */
  lemma ScheduleOfCatalogCourse(lower: string -> string, i: nat)
    requires i < |InitialCourses|
    requires forall j | 0 <= j < i :: lower(InitialCourses[j].name) != lower(InitialCourses[i].name)
    ensures CourseSchedule(BuiltIn(lower), InitialCourses[i].name) == Schedules[InitialCourses[i].code]
  {
    assert FirstMatch(BuiltIn(lower), InitialCourses[i].name, i);
    CatalogComplete(i);
  }

  /** A name matching no built-in course is reported as not found. */
  lemma UnknownCourse(lower: string -> string, name: string)
    requires forall i | 0 <= i < |InitialCourses| :: lower(InitialCourses[i].name) != lower(name)
    ensures CourseSchedule(BuiltIn(lower), name) == CourseNotFound(name)
  {
  }

  /** A teacher of a built-in course yields their office hours; a missing
      name yields the message for "undefined". */
  lemma OfficeHoursOfCatalogTeacher(lower: string -> string, i: nat)
    requires i < |InitialCourses|
    ensures TeacherAvailability(BuiltIn(lower), Some(InitialCourses[i].teacher)) == OfficeHours[InitialCourses[i].teacher]
    ensures TeacherAvailability(BuiltIn(lower), None) == NoOfficeHours("undefined")
  {
    CatalogComplete(i);
    assert "undefined" !in OfficeHours;
  }

  /** A registered call is answered iff at least one call is registered. */
  lemma {:induction false} SomeToolIffResponses(env: Tools, calls: seq<Call>)
    requires ResolveCalls(env, calls).Success?
    ensures |ResolveCalls(env, calls).value| > 0 <==> exists i | 0 <= i < |calls| :: IsToolCall(calls[i])
  {
    var tools := Filter(IsToolCall, calls);
    if exists i | 0 <= i < |calls| :: IsToolCall(calls[i]) {
      var i :| 0 <= i < |calls| && IsToolCall(calls[i]);
      assert calls[i] in tools;
    }
    if |tools| > 0 {
      assert tools[0] in calls && IsToolCall(tools[0]);
    }
  }

  /** When the model request fails, the turn ends in the error message and
      no credit is spent. */
  lemma FailedRequestReportsError(chat: Chat, credits: int, env: Tools, second: Result<Reply, Fault>)
    requires !Ignored(chat, credits)
    ensures var t := Send(chat, credits, env, Failure(Fault), second);
      !t.creditUsed && t.requests == [UserText(chat.input)] &&
      t.chat.messages == chat.messages + [Message(UserSender, chat.input), Message(ErrorSender, ErrorText)]
  {
  }

  /** A reply that calls no registered tool is shown as it is, after a
      single request, and costs one credit. */
  lemma UnregisteredCallsAnswerDirectly(chat: Chat, credits: int, env: Tools, reply: Reply, second: Result<Reply, Fault>)
    requires !Ignored(chat, credits)
    requires forall i | 0 <= i < |reply.calls| :: !IsToolCall(reply.calls[i])
    ensures var t := Send(chat, credits, env, Success(reply), second);
      t.creditUsed && t.requests == [UserText(chat.input)] &&
      t.chat.messages == chat.messages + [Message(UserSender, chat.input), Message(AssistantSender, reply.text)]
  {
    if |reply.calls| > 0 {
      SomeToolIffResponses(env, reply.calls);
    }
  }

  /** A reply calling registered tools that all succeed is followed by one
      request carrying their results, in order; the second reply's text is
      shown and costs one credit. */
  lemma ToolRoundTrip(chat: Chat, credits: int, env: Tools, reply: Reply, again: Reply)
    requires !Ignored(chat, credits)
    requires exists i | 0 <= i < |reply.calls| :: IsToolCall(reply.calls[i])
    requires forall i | 0 <= i < |reply.calls| :: IsToolCall(reply.calls[i]) ==> !Throws(reply.calls[i])
    ensures var t := Send(chat, credits, env, Success(reply), Success(again));
      t.creditUsed && |t.requests| == 2 && t.requests[0] == UserText(chat.input) &&
      t.requests[1].ToolResponses? && Responds(env, Filter(IsToolCall, reply.calls), t.requests[1].responses) &&
      t.chat.messages == chat.messages + [Message(UserSender, chat.input), Message(AssistantSender, again.text)]
  {
    SomeToolIffResponses(env, reply.calls);
  }

  /** When the tools succeed but the request carrying their results fails,
      the turn ends in the error message after two requests, and no credit
      is spent. */
  lemma SecondRequestFailureReportsError(chat: Chat, credits: int, env: Tools, reply: Reply)
    requires !Ignored(chat, credits)
    requires exists i | 0 <= i < |reply.calls| :: IsToolCall(reply.calls[i])
    requires forall i | 0 <= i < |reply.calls| :: IsToolCall(reply.calls[i]) ==> !Throws(reply.calls[i])
    ensures var t := Send(chat, credits, env, Success(reply), Failure(Fault));
      !t.creditUsed && |t.requests| == 2 && t.requests[0] == UserText(chat.input) &&
      t.requests[1].ToolResponses? && Responds(env, Filter(IsToolCall, reply.calls), t.requests[1].responses) &&
      t.chat.messages == chat.messages + [Message(UserSender, chat.input), Message(ErrorSender, ErrorText)]
  {
    SomeToolIffResponses(env, reply.calls);
  }

  /** A registered call that throws ends the turn in the error message,
      before any second request, and no credit is spent. */
  lemma ThrowingToolReportsError(chat: Chat, credits: int, env: Tools, reply: Reply, second: Result<Reply, Fault>, i: nat)
    requires !Ignored(chat, credits)
    requires i < |reply.calls| && IsToolCall(reply.calls[i]) && Throws(reply.calls[i])
    ensures var t := Send(chat, credits, env, Success(reply), second);
      !t.creditUsed && t.requests == [UserText(chat.input)] &&
      t.chat.messages == chat.messages + [Message(UserSender, chat.input), Message(ErrorSender, ErrorText)]
  {
  }
}

=== FILE: catalog.dfy ===
/** The application's records and its built-in data (index.tsx): users,
    courses with their content and exercises, announcements, and the fixed
    schedule and office-hour tables the assistant's tools read. */
module Catalog {
  import opened Exercises

  datatype Role = Student | Admin

  datatype User = User(id: int, name: string, email: string, password: string, role: Role, credits: int)

  datatype Content = Content(html: string, js: string)

  datatype Course = Course(id: int, name: string, code: string, teacher: string, content: Content, exercises: seq<Exercise>)

  datatype Announcement = Announcement(id: int, text: string, date: string)

  function UserId(u: User): int {
    u.id
  }

  function CourseId(c: Course): int {
    c.id
  }

  const InitialStudents: seq<User> := [
    User(101, "Ana Silva", "ana.silva@email.com", "password123", Student, 15),
    User(102, "Bruno Costa", "bruno.costa@email.com", "password123", Student, 5),
    User(103, "Carlos Dias", "carlos.dias@email.com", "password123", Student, 0)
  ]

  const InitialCourses: seq<Course> := [
    Course(1, "Cálculo I", "MAT101", "Dr. Evelyn",
      Content("<h1>Bem-vindo ao Cálculo I</h1><p>Esta é a introdução ao curso.</p>", "console.log(\"Hello Cálculo I!\");"),
      [MultipleChoice(1, "Qual a derivada de x^2?", ["2x", "x", "x^2", "2"], "2x")]),
    Course(2, "Introdução à Programação", "CS101", "Prof. Ricardo",
      Content("<h2>Variáveis em JavaScript</h2><p>Variáveis são usadas para armazenar dados. Use <code>let</code>, <code>const</code>, ou <code>var</code>.</p>",
        "let x = 10;\nconst PI = 3.14;\nconsole.log(x, PI);"),
      [TextAnswer(2, "Declare uma constante chamada \"GRAVITY\" com o valor 9.8", "const GRAVITY = 9.8;")]),
    Course(3, "Física Clássica", "PHY101", "Dr. Monteiro", Content("", ""), []),
    Course(4, "Comunicação e Escrita", "LNG101", "Prof. Lúcia", Content("", ""), [])
  ]

  const InitialAnnouncements: seq<Announcement> := [
    Announcement(1, "Inscrições para o próximo semestre abertas.", "2024-07-20"),
    Announcement(2, "Manutenção do sistema no próximo sábado.", "2024-07-18"),
    Announcement(3, "Palestra sobre carreira em IA na próxima sexta.", "2024-07-15")
  ]

  /** Class times by course code. */
  const Schedules: map<string, string> := map[
    "MAT101" := "Segundas e Quartas, 10:00 - 12:00, Sala 201",
    "CS101" := "Terças e Quintas, 14:00 - 16:00, Laboratório B",
    "PHY101" := "Segundas e Sextas, 08:00 - 10:00, Auditório 3",
    "LNG101" := "Quartas, 16:00 - 18:00, Sala 105"
  ]

  /** Office hours by teacher name. */
  const OfficeHours: map<string, string> := map[
    "Dr. Evelyn" := "Quartas, 13:00 - 15:00, Gabinete 12",
    "Prof. Ricardo" := "Quintas, 16:00 - 17:00 (online)",
    "Dr. Monteiro" := "Sextas, 10:00 - 11:00, Gabinete 15",
    "Prof. Lúcia" := "Terças, 11:00 - 12:00, Sala de Professores"
  ]

  /** Every built-in course has a non-empty schedule and a teacher with
      non-empty office hours. */
  lemma CatalogComplete(i: nat)
    requires i < |InitialCourses|
    ensures InitialCourses[i].code in Schedules && Schedules[InitialCourses[i].code] != ""
    ensures InitialCourses[i].teacher in OfficeHours && OfficeHours[InitialCourses[i].teacher] != ""
  {
  }

  /** The built-in exercises list their answers among their options. */
  lemma InitialExercisesListed(i: nat)
    requires i < |InitialCourses|
    ensures AnswersListed(InitialCourses[i].exercises)
  {
  }
}

=== FILE: config.dfy ===
/** Application configuration read from the environment (index.tsx, top of
    file): the model name, the credit cost of an assistant turn, the credits
    of a new user, and the purchasable credit packages with their defaults. */
module Config {
  import opened Wrappers
  import opened Text

  datatype Color = Green | Blue | Purple | Orange

  /** The palette, in the order used for the positional fallback. */
  const Colors: seq<Color> := [Green, Blue, Purple, Orange]

  function ColorName(c: Color): string {
    match c
    case Green => "green"
    case Blue => "blue"
    case Purple => "purple"
    case Orange => "orange"
  }

  /** `colors.includes(name)`, returning the colour named. */
  function ColorOf(name: string): (r: Option<Color>)
    ensures r.Some? ==> ColorName(r.value) == name
    ensures r.None? ==> forall c: Color :: ColorName(c) != name
  {
    if name == "green" then Some(Green)
    else if name == "blue" then Some(Blue)
    else if name == "purple" then Some(Purple)
    else if name == "orange" then Some(Orange)
    else None
  }

  /** A package as parsed: `None` stands for `NaN`. */
  datatype Package = Package(price: Option<int>, credits: Option<int>, color: Color, popular: bool)

  /** `parts.find(p => colors.includes(p))`. */
  function FirstColor(parts: seq<string>): (r: Option<Color>)
    ensures r.None? <==> forall i | 0 <= i < |parts| :: ColorOf(parts[i]).None?
    ensures r.Some? ==> exists i | 0 <= i < |parts| :: ColorOf(parts[i]) == r && forall j | 0 <= j < i :: ColorOf(parts[j]).None?
    ensures forall i | 0 <= i < |parts| && ColorOf(parts[i]).Some? && (forall j | 0 <= j < i :: ColorOf(parts[j]).None?) ::
              r == ColorOf(parts[i])
  {
    if |parts| == 0 then None
    else if ColorOf(parts[0]).Some? then ColorOf(parts[0])
    else
      var r := FirstColor(parts[1..]);
      assert forall j | 0 <= j < |parts| - 1 :: parts[1..][j] == parts[j + 1];
      r
  }

  /** The `:`-separated fields of one comma-separated entry. */
  function Fields(entry: string): (parts: seq<string>)
    ensures |parts| >= 1
  {
    Split(Trim(entry), ':')
  }

  /** One entry `price:credits[:color][:popular]`, the `index`-th of the list. */
  function ParsePackage(entry: string, index: nat): Package {
    var parts := Fields(entry);
    Package(
      ParseInt(parts[0]),
      if |parts| >= 2 then ParseInt(parts[1]) else None,
      FirstColor(parts).GetOr(Colors[index % 4]),
      "popular" in parts)
  }

  /** The first colour named in the entry wins; otherwise the entry's
      position picks one, cycling through the palette. `popular` is set exactly when some
      field is `popular`, and an entry without a second field has no credits. */
  lemma ParsePackageFields(entry: string, index: nat)
    ensures var p := ParsePackage(entry, index);
      && ((forall i | 0 <= i < |Fields(entry)| :: ColorOf(Fields(entry)[i]).None?) ==> p.color == Colors[index % 4])
      && (forall i | 0 <= i < |Fields(entry)| && ColorOf(Fields(entry)[i]).Some? &&
                     (forall j | 0 <= j < i :: ColorOf(Fields(entry)[j]).None?) ::
            p.color == ColorOf(Fields(entry)[i]).value)
      && (p.color != Colors[index % 4] ==> exists i | 0 <= i < |Fields(entry)| :: Fields(entry)[i] == ColorName(p.color))
      && (p.popular <==> "popular" in Fields(entry))
      && (|Fields(entry)| < 2 ==> p.credits.None?)
  {
  }

  /** With two colours named, the first one wins. */
  lemma FirstNamedColorWins(index: nat)
    ensures ParsePackage("20:200:blue:green", index).color == Blue
  {
    var e := "20:200:blue:green";
    var f := Fields(e);
    SampleFields();
    assert ColorOf(f[0]).None? && ColorOf(f[1]).None? && ColorOf(f[2]) == Some(Blue);
    assert forall j | 0 <= j < 2 :: ColorOf(f[j]).None?;
    assert FirstColor(f) == Some(Blue);
  }

  lemma SampleFields()
    ensures Fields("20:200:blue:green") == ["20", "200", "blue", "green"]
  {
    var e := "20:200:blue:green";
    assert Trim(e) == e by {
      TrimUnchanged(e);
    }
    SampleSplit();
  }

  lemma SampleSplit()
    ensures Split("20:200:blue:green", ':') == ["20", "200", "blue", "green"]
  {
    var parts := ["20", "200", "blue", "green"];
    assert Join(parts, ":") == "20:200:blue:green" by {
      assert Join(parts[3..], ":") == "green";
      assert Join(parts[2..], ":") == "blue:green";
      assert Join(parts[1..], ":") == "200:blue:green";
    }
    SplitJoin(parts, ':');
  }

  /** `parseCreditPackages(str)`: `None` (the source's `null`) when the variable
      is unset or empty, otherwise one package per comma-separated entry. */
  function ParseCreditPackages(env: Option<string>): (r: Option<seq<Package>>)
    ensures r.None? <==> env.None? || env.value == ""
    ensures r.Some? ==> |r.value| == Count(env.value, ',') + 1
    ensures r.Some? ==> forall i | 0 <= i < |r.value| :: r.value[i] == ParsePackage(Split(env.value, ',')[i], i)
  {
    if env.None? || env.value == "" then None
    else Some(ParseAll(Split(env.value, ',')))
  }

  /** `entries.map((entry, index) => ...)`. */
  function ParseAll(entries: seq<string>): (r: seq<Package>)
    ensures |r| == |entries| && forall i | 0 <= i < |entries| :: r[i] == ParsePackage(entries[i], i)
  {
    seq(|entries|, i requires 0 <= i < |entries| => ParsePackage(entries[i], i))
  }

  const DefaultPackages: seq<Package> := [
    Package(Some(20), Some(200), Green, false),
    Package(Some(50), Some(550), Blue, true),
    Package(Some(100), Some(1200), Purple, false)
  ]

  /** The environment variables read at start-up; `None` when unset. */
  datatype Env = Env(
    geminiModel: Option<string>,
    assistantCreditCost: Option<string>,
    newUserStartingCredits: Option<string>,
    creditPackages: Option<string>)

  /** `APP_CONFIG`; a `None` number is a `NaN`. */
  datatype AppConfig = AppConfig(
    geminiModel: string,
    assistantCreditCost: Option<int>,
    newUserStartingCredits: Option<int>,
    creditPackages: seq<Package>)

  /** `value || fallback` for a string-valued variable: unset and empty both fall back. */
  function OrElse(value: Option<string>, fallback: string): (r: string)
    ensures value.Some? && value.value != "" ==> r == value.value
    ensures value.None? || value.value == "" ==> r == fallback
  {
    if value.Some? && value.value != "" then value.value else fallback
  }

  lemma DefaultNumbers()
    ensures ParseInt("1") == Some(1) && ParseInt("20") == Some(20)
  {
    ParseShowInt(1, "");
    ParseShowInt(20, "");
    assert ShowInt(1) + "" == "1";
    assert ShowInt(20) + "" == "20";
  }

  /** `APP_CONFIG`: a variable that is unset or empty takes its default;
      a set cost or credit value is read by `parseInt`. */
  function LoadConfig(env: Env): (c: AppConfig)
    ensures env.creditPackages.None? || env.creditPackages.value == "" ==> c.creditPackages == DefaultPackages
    ensures env.creditPackages.Some? && env.creditPackages.value != "" ==>
              |c.creditPackages| == Count(env.creditPackages.value, ',') + 1 &&
              forall i | 0 <= i < |c.creditPackages| ::
                c.creditPackages[i] == ParsePackage(Split(env.creditPackages.value, ',')[i], i)
    ensures env.assistantCreditCost.None? || env.assistantCreditCost.value == "" ==> c.assistantCreditCost == Some(1)
    ensures env.assistantCreditCost.Some? && env.assistantCreditCost.value != "" ==>
              c.assistantCreditCost == ParseInt(env.assistantCreditCost.value)
    ensures env.newUserStartingCredits.None? || env.newUserStartingCredits.value == "" ==> c.newUserStartingCredits == Some(20)
    ensures env.newUserStartingCredits.Some? && env.newUserStartingCredits.value != "" ==>
              c.newUserStartingCredits == ParseInt(env.newUserStartingCredits.value)
    ensures env.geminiModel.None? || env.geminiModel.value == "" ==> c.geminiModel == "gemini-2.5-flash"
    ensures env.geminiModel.Some? && env.geminiModel.value != "" ==> c.geminiModel == env.geminiModel.value
  {
    DefaultNumbers();
    AppConfig(
      OrElse(env.geminiModel, "gemini-2.5-flash"),
      ParseInt(OrElse(env.assistantCreditCost, "1")),
      ParseInt(OrElse(env.newUserStartingCredits, "20")),
      ParseCreditPackages(env.creditPackages).GetOr(DefaultPackages))
  }

  // -------------------------------------------------------------- round trip

  /** The canonical entry for a package with numeric price and credits. */
  function FormatPackage(p: Package): string
    requires p.price.Some? && p.credits.Some?
  {
    Join(PackageFields(p), ":")
  }

  function PackageFields(p: Package): (parts: seq<string>)
    requires p.price.Some? && p.credits.Some?
  {
    [ShowInt(p.price.value), ShowInt(p.credits.value), ColorName(p.color)] + (if p.popular then ["popular"] else [])
  }

  function FormatPackages(ps: seq<Package>): string
    requires forall i | 0 <= i < |ps| :: ps[i].price.Some? && ps[i].credits.Some?
  {
    Join(FormatAll(ps), ",")
  }

  function FormatAll(ps: seq<Package>): (r: seq<string>)
    requires forall i | 0 <= i < |ps| :: ps[i].price.Some? && ps[i].credits.Some?
    ensures |r| == |ps| && forall i | 0 <= i < |ps| :: r[i] == FormatPackage(ps[i])
  {
    seq(|ps|, i requires 0 <= i < |ps| => FormatPackage(ps[i]))
  }

  /** A colour name starts with a letter, so no number's rendering names a colour. */
  lemma ColorNameFacts(c: Color)
    ensures |ColorName(c)| >= 4 && 'a' <= ColorName(c)[0] <= 'z'
    ensures 'a' <= ColorName(c)[|ColorName(c)| - 1] <= 'z'
    ensures ',' !in ColorName(c) && ':' !in ColorName(c)
    ensures ColorName(c) != "popular"
    ensures ColorOf(ColorName(c)) == Some(c)
  {
  }

  lemma NumberFieldFacts(n: int)
    ensures ColorOf(ShowInt(n)).None? && ShowInt(n) != "popular"
    ensures ',' !in ShowInt(n) && ':' !in ShowInt(n)
    ensures !IsSpace(ShowInt(n)[0])
  {
    ShowIntShape(n);
    var s := ShowInt(n);
    if ColorOf(s).Some? {
      ColorNameFacts(ColorOf(s).value);
    }
    assert s != "popular" by { assert "popular"[0] == 'p'; }
  }

  lemma FieldsSeparatorFree(p: Package)
    requires p.price.Some? && p.credits.Some?
    ensures forall i | 0 <= i < |PackageFields(p)| :: ',' !in PackageFields(p)[i] && ':' !in PackageFields(p)[i]
  {
    NumberFieldFacts(p.price.value);
    NumberFieldFacts(p.credits.value);
    ColorNameFacts(p.color);
  }

  lemma FieldsColorAndFlag(p: Package)
    requires p.price.Some? && p.credits.Some?
    ensures FirstColor(PackageFields(p)) == Some(p.color)
    ensures "popular" in PackageFields(p) <==> p.popular
  {
    var parts := PackageFields(p);
    NumberFieldFacts(p.price.value);
    NumberFieldFacts(p.credits.value);
    ColorNameFacts(p.color);
    assert FirstColor(parts[2..]) == Some(p.color);
    assert FirstColor(parts[1..]) == FirstColor(parts[2..]) by { assert parts[1..][1..] == parts[2..]; }
  }

  lemma FormatEnds(p: Package)
    requires p.price.Some? && p.credits.Some?
    ensures |FormatPackage(p)| > 0
    ensures !IsSpace(FormatPackage(p)[0]) && !IsSpace(FormatPackage(p)[|FormatPackage(p)| - 1])
  {
    var parts := PackageFields(p);
    NumberFieldFacts(p.price.value);
    ColorNameFacts(p.color);
    JoinEnds(parts, ":");
    var f := FormatPackage(p);
    var last := parts[|parts| - 1];
    assert f[0] == parts[0][0];
    assert f[|f| - 1] == last[|last| - 1];
    assert 'a' <= last[|last| - 1] <= 'z';
  }

  /** Reading a formatted package back, at any position, gives the package. */
  lemma ParseFormatPackage(p: Package, index: nat)
    requires p.price.Some? && p.credits.Some?
    ensures ParsePackage(FormatPackage(p), index) == p
  {
    var parts := PackageFields(p);
    FieldsSeparatorFree(p);
    FieldsColorAndFlag(p);
    FormatEnds(p);
    TrimUnchanged(FormatPackage(p));
    SplitJoin(parts, ':');
    assert Fields(FormatPackage(p)) == parts;
    ParseShowInt(p.price.value, "");
    ParseShowInt(p.credits.value, "");
    assert ShowInt(p.price.value) + "" == parts[0];
    assert ShowInt(p.credits.value) + "" == parts[1];
  }

  lemma EntryReadsBack(p: Package, i: nat)
    requires p.price.Some? && p.credits.Some?
    ensures ',' !in FormatPackage(p) && ParsePackage(FormatPackage(p), i) == p
  {
    FieldsSeparatorFree(p);
    ParseFormatPackage(p, i);
    JoinCharFree(PackageFields(p), ":", ',');
  }

  /** `parseCreditPackages` reads back every non-empty list of packages in
      the canonical `price:credits:color[:popular]` form. */
  lemma ParseFormat(ps: seq<Package>)
    requires |ps| >= 1
    requires forall i | 0 <= i < |ps| :: ps[i].price.Some? && ps[i].credits.Some?
    ensures ParseCreditPackages(Some(FormatPackages(ps))) == Some(ps)
  {
    var entries := FormatAll(ps);
    forall i | 0 <= i < |ps|
      ensures ',' !in entries[i] && ParsePackage(entries[i], i) == ps[i]
    {
      EntryReadsBack(ps[i], i);
    }
    SplitJoin(entries, ',');
    assert ParseAll(entries) == ps;
    JoinEnds(entries, ",");
    FormatEnds(ps[0]);
  }
}

=== FILE: exercises.dfy ===
/** Exercises of a course and the two ways the course editor builds them
    (index.tsx): the manual form of `CourseManagement` (`handleAddExercise`,
    `handleRemoveExercise`) and the conversion of a generated quiz
    (`handleAddQuizAsExercises` of `AdminAssistant`). */
module Exercises {
  import opened Wrappers
  import opened Text
  import opened Seqs

  datatype Exercise =
    | TextAnswer(id: int, question: string, answer: string)
    | MultipleChoice(id: int, question: string, options: seq<string>, answer: string)

  function ExerciseId(e: Exercise): int {
    e.id
  }

  /** Every multiple-choice exercise names one of its own options as the answer,
      which is what `MultipleChoiceExercise` compares the student's pick with. */
  predicate AnswersListed(exs: seq<Exercise>) {
    forall i | 0 <= i < |exs| && exs[i].MultipleChoice? :: exs[i].answer in exs[i].options
  }

  // ------------------------------------------------------------ the form

  datatype Kind = TextKind | ChoiceKind

  /** The editor's form: the selected type, the question, the text answer,
      the option fields and the index of the checked radio button. */
  datatype Form = Form(kind: Kind, question: string, answer: string, options: seq<string>, correct: nat)

  /** A form whose checked radio button belongs to one of its option fields,
      as the form's radio buttons guarantee. */
  predicate WellFormed(f: Form) {
    f.correct < |f.options|
  }

  /** The form after a successful add: the type is kept, the rest is cleared. */
  function Reset(f: Form): (r: Form)
    ensures WellFormed(r) && r.kind == f.kind
    ensures IsBlank(r.question) && forall i | 0 <= i < |r.options| :: IsBlank(r.options[i])
    ensures r.question == "" && r.answer == "" && r.options == ["", "", "", ""] && r.correct == 0
  {
    Form(f.kind, "", "", ["", "", "", ""], 0)
  }

  datatype Outcome = Ignored | Alerted | Added(exercise: Exercise)

  /** `o.trim() !== ''`. */
  predicate Filled(o: string) {
    !IsBlank(o)
  }

  /** `newExerciseOptions.filter(opt => opt.trim() !== '')`. */
  function FilledOptions(options: seq<string>): (r: seq<string>)
    ensures forall i | 0 <= i < |r| :: r[i] in options && Filled(r[i])
    ensures forall i | 0 <= i < |options| && Filled(options[i]) :: options[i] in r
  {
    Filter(Filled, options)
  }

  /** `handleAddExercise` as written: the guard looks up the checked index in
      the filtered options while the stored answer is read from the unfiltered
      ones. */
  function AddExercise(f: Form, id: int): (o: Outcome)
    requires WellFormed(f)
    ensures o.Ignored? <==> IsBlank(f.question) || (f.kind.TextKind? && IsBlank(f.answer))
    ensures o.Alerted? <==> (!IsBlank(f.question) && f.kind.ChoiceKind?
      && (|FilledOptions(f.options)| < 2 || f.correct >= |FilledOptions(f.options)|))
    ensures o.Added? && f.kind.TextKind? ==> o.exercise == TextAnswer(id, f.question, f.answer)
    ensures o.Added? && f.kind.ChoiceKind? ==>
      o.exercise == MultipleChoice(id, f.question, FilledOptions(f.options), f.options[f.correct])
      && |o.exercise.options| >= 2
  {
    if IsBlank(f.question) then Ignored
    else if f.kind.TextKind? then
      if IsBlank(f.answer) then Ignored
      else Added(TextAnswer(id, f.question, f.answer))
    else
      var valid := FilledOptions(f.options);
      if |valid| < 2 || f.correct >= |valid| || IsBlank(valid[f.correct]) then Alerted
      else Added(MultipleChoice(id, f.question, valid, f.options[f.correct]))
  }

  /** A blank first field checked by default, followed by two filled ones, is
      accepted, and the stored answer is the blank field: not an option. */
  lemma BlankAnswerAccepted(q: string, blank1: string, a: string, b: string, blank2: string, id: int)
    requires !IsBlank(q) && IsBlank(blank1) && IsBlank(blank2) && !IsBlank(a) && !IsBlank(b)
    ensures var f := Form(ChoiceKind, q, "", [blank1, a, b, blank2], 0);
      && AddExercise(f, id) == Added(MultipleChoice(id, q, [a, b], blank1))
      && blank1 !in [a, b]
  {
    var opts := [blank1, a, b, blank2];
    FilledOfFour(blank1, a, b, blank2);
    assert FilledOptions(opts) == [a, b];
  }

  /** A filled third field, checked, after a blank second one is refused,
      although the answer it names is a valid option. */
  lemma FilledAnswerRefused(q: string, a: string, blank1: string, b: string, blank2: string, id: int)
    requires !IsBlank(q) && IsBlank(blank1) && IsBlank(blank2) && !IsBlank(a) && !IsBlank(b)
    ensures AddExercise(Form(ChoiceKind, q, "", [a, blank1, b, blank2], 2), id) == Alerted
    ensures Filled([a, blank1, b, blank2][2])
  {
    FilledOfAlternating(a, blank1, b, blank2);
  }

  lemma FilledOfAlternating(w: string, x: string, y: string, z: string)
    requires !IsBlank(w) && IsBlank(x) && !IsBlank(y) && IsBlank(z)
    ensures FilledOptions([w, x, y, z]) == [w, y]
  {
    FilledStep(w, [x, y, z]);
    FilledStep(x, [y, z]);
    FilledStep(y, [z]);
    FilledStep(z, []);
  }

  /** The filter keeps the filled options in their order and with their
      repetitions: it distributes over concatenation and keeps a single
      option iff it is filled. */
  lemma FilledOptionsKeepsOrder(a: seq<string>, b: seq<string>, o: string)
    ensures FilledOptions(a + b) == FilledOptions(a) + FilledOptions(b)
    ensures FilledOptions([o]) == if Filled(o) then [o] else []
  {
    FilterConcat(Filled, a, b);
    FilledStep(o, []);
    assert [o] + [] == [o];
  }

  lemma FilledStep(o: string, rest: seq<string>)
    ensures FilledOptions([o] + rest) == (if Filled(o) then [o] else []) + FilledOptions(rest)
  {
    assert ([o] + rest)[1..] == rest;
  }

  lemma FilledOfFour(w: string, x: string, y: string, z: string)
    requires IsBlank(w) && IsBlank(z) && !IsBlank(x) && !IsBlank(y)
    ensures FilledOptions([w, x, y, z]) == [x, y]
  {
    FilledStep(w, [x, y, z]);
    FilledStep(x, [y, z]);
    FilledStep(y, [z]);
    FilledStep(z, []);
  }


  /** The evidently intended check: the checked field itself must be filled;
      then the answer is one of the stored options. */
  function AddExerciseIntended(f: Form, id: int): (o: Outcome)
    requires WellFormed(f)
    ensures o.Ignored? <==> IsBlank(f.question) || (f.kind.TextKind? && IsBlank(f.answer))
    ensures o.Alerted? <==> (!IsBlank(f.question) && f.kind.ChoiceKind?
      && (|FilledOptions(f.options)| < 2 || IsBlank(f.options[f.correct])))
    ensures o.Added? && f.kind.TextKind? ==> o.exercise == TextAnswer(id, f.question, f.answer)
    ensures o.Added? && f.kind.ChoiceKind? ==>
      o.exercise.MultipleChoice? && o.exercise.answer in o.exercise.options && |o.exercise.options| >= 2
  {
    if IsBlank(f.question) then Ignored
    else if f.kind.TextKind? then
      if IsBlank(f.answer) then Ignored
      else Added(TextAnswer(id, f.question, f.answer))
    else
      var valid := FilledOptions(f.options);
      if |valid| < 2 || IsBlank(f.options[f.correct]) then Alerted
      else Added(MultipleChoice(id, f.question, valid, f.options[f.correct]))
  }

  /** When no field is blank the two checks agree. */
  lemma IntendedAgreesWithoutBlanks(f: Form, id: int)
    requires WellFormed(f) && forall i | 0 <= i < |f.options| :: Filled(f.options[i])
    ensures AddExerciseIntended(f, id) == AddExercise(f, id)
  {
    AllFilled(f.options);
  }

  lemma {:induction false} AllFilled(options: seq<string>)
    requires forall i | 0 <= i < |options| :: Filled(options[i])
    ensures FilledOptions(options) == options
    decreases |options|
  {
    if |options| > 0 {
      AllFilled(options[1..]);
    }
  }

  /** The editor's list of exercises and its form. */
  datatype Editor = Editor(exercises: seq<Exercise>, form: Form)

  /** Pressing "add": on success the exercise is appended and the form reset;
      otherwise nothing changes. */
  function Submit(e: Editor, id: int): (r: Editor)
    requires WellFormed(e.form)
    ensures WellFormed(r.form)
    ensures AnswersListed(e.exercises) ==> AnswersListed(r.exercises)
    ensures r == e || (|r.exercises| == |e.exercises| + 1 && r.exercises[..|e.exercises|] == e.exercises)
    ensures AddExerciseIntended(e.form, id).Added? ==>
              r == Editor(e.exercises + [AddExerciseIntended(e.form, id).exercise], Reset(e.form))
    ensures !AddExerciseIntended(e.form, id).Added? ==> r == e
  {
    match AddExerciseIntended(e.form, id)
    case Added(x) => Editor(e.exercises + [x], Reset(e.form))
    case _ => e
  }

  /** `Submit` with the check as written. */
  function SubmitAsWritten(e: Editor, id: int): (r: Editor)
    requires WellFormed(e.form)
    ensures WellFormed(r.form)
    ensures r == e || (|r.exercises| == |e.exercises| + 1 && r.exercises[..|e.exercises|] == e.exercises &&
                       r.form == Reset(e.form))
    ensures AddExercise(e.form, id).Added? ==> r == Editor(e.exercises + [AddExercise(e.form, id).exercise], Reset(e.form))
    ensures !AddExercise(e.form, id).Added? ==> r == e
  {
    match AddExercise(e.form, id)
    case Added(x) => Editor(e.exercises + [x], Reset(e.form))
    case _ => e
  }

  /** With the check as written, one press on an editor whose exercises all
      list their answers can store one that does not. */
  lemma SubmitAsWrittenBreaksAnswers(q: string, blank1: string, a: string, b: string, blank2: string, id: int)
    requires !IsBlank(q) && IsBlank(blank1) && IsBlank(blank2) && !IsBlank(a) && !IsBlank(b)
    ensures var e := Editor([], Form(ChoiceKind, q, "", [blank1, a, b, blank2], 0));
      AnswersListed(e.exercises) && !AnswersListed(SubmitAsWritten(e, id).exercises)
  {
    var f := Form(ChoiceKind, q, "", [blank1, a, b, blank2], 0);
    BlankAnswerAccepted(q, blank1, a, b, blank2, id);
    var x := MultipleChoice(id, q, [a, b], blank1);
    assert SubmitAsWritten(Editor([], f), id).exercises == [] + [x];
    assert ([] + [x])[0] == x;
  }

  /** `handleRemoveExercise(id)`. */
  function RemoveExercise(exs: seq<Exercise>, id: int): (r: seq<Exercise>)
    ensures forall i | 0 <= i < |r| :: r[i].id != id && r[i] in exs
    ensures forall i | 0 <= i < |exs| && exs[i].id != id :: exs[i] in r
    ensures AnswersListed(exs) ==> AnswersListed(r)
  {
    var r := RemoveBy(ExerciseId, exs, id);
    assert forall i | 0 <= i < |r| :: exists j | 0 <= j < |exs| :: exs[j] == r[i];
    r
  }

  /** Removal keeps the remaining exercises in their order and with their
      repetitions. */
  lemma RemoveExerciseKeepsOrder(a: seq<Exercise>, b: seq<Exercise>, x: Exercise, id: int)
    ensures RemoveExercise(a + b, id) == RemoveExercise(a, id) + RemoveExercise(b, id)
    ensures RemoveExercise([x], id) == if x.id != id then [x] else []
  {
    RemoveByConcat(ExerciseId, a, b, id);
    RemoveBySingle(ExerciseId, x, id);
  }

  // ------------------------------------------------------ generated quizzes

  /** A quiz question as generated: its options as an object from keys to
      texts (in insertion order, keys distinct) and the key of the answer. */
  datatype QuizItem = QuizItem(question: string, options: seq<(string, string)>, answer: string)

  predicate KeysDistinct(options: seq<(string, string)>) {
    forall i, j | 0 <= i < j < |options| :: options[i].0 != options[j].0
  }

  /** An exercise built from a quiz item, before `handleAddGeneratedExercises`
      gives it an id; `None` is an `undefined` answer. */
  datatype Draft = Draft(question: string, options: seq<string>, answer: Option<string>)

  /** `q.options[q.answer]`. */
  function Lookup(options: seq<(string, string)>, key: string): (r: Option<string>)
    ensures r.None? <==> forall i | 0 <= i < |options| :: options[i].0 != key
    ensures r.Some? ==> exists i | 0 <= i < |options| :: options[i] == (key, r.value)
  {
    match FindBy((o: (string, string)) => o.0, options, key)
    case None => None
    case Some(o) => Some(o.1)
  }

  /** `Object.values(q.options)`. */
  function Values(options: seq<(string, string)>): (r: seq<string>)
    ensures |r| == |options| && forall i | 0 <= i < |options| :: r[i] == options[i].1
  {
    seq(|options|, i requires 0 <= i < |options| => options[i].1)
  }

  /** `handleAddQuizAsExercises`: one draft per quiz item, in order. */
  function QuizToDrafts(quiz: seq<QuizItem>): (r: seq<Draft>)
    ensures |r| == |quiz|
    ensures forall i | 0 <= i < |quiz| :: r[i].question == quiz[i].question && r[i].options == Values(quiz[i].options)
    ensures forall i | 0 <= i < |quiz| :: r[i].answer.None? <==> forall j | 0 <= j < |quiz[i].options| :: quiz[i].options[j].0 != quiz[i].answer
  {
    seq(|quiz|, i requires 0 <= i < |quiz| =>
      Draft(quiz[i].question, Values(quiz[i].options), Lookup(quiz[i].options, quiz[i].answer)))
  }

  /** A draft's answer, when the key exists, is the text of that key, so it is
      one of the draft's options. */
  lemma DraftAnswerIsOption(item: QuizItem, k: nat)
    requires KeysDistinct(item.options) && k < |item.options| && item.options[k].0 == item.answer
    ensures QuizToDrafts([item])[0].answer == Some(item.options[k].1)
    ensures item.options[k].1 in QuizToDrafts([item])[0].options
  {
    var key := (o: (string, string)) => o.0;
    FindByIsFirst(key, item.options, item.answer, k);
    assert Values(item.options)[k] == item.options[k].1;
  }
}

=== FILE: markdown.dfy ===
/** The line-oriented part of `markdownToHtml` (index.tsx): escaping, the
    classification of each line, and the single pass that fills the buffer of
    HTML lines while tracking which list (`ul`, `ol` or none) is open.

    The buffer is modelled as a sequence of `Block`s; `Render` gives the exact
    string the source pushes for each one. */
module Markdown {
  import opened Wrappers
  import opened Text
  import opened Seqs

  datatype ListKind = Ul | Ol

  /** The renderer's `inList` variable. */
  datatype ListMode = NoList | InList(kind: ListKind)

  type Level = n: nat | 1 <= n <= 3 witness 1

  /** One entry of the source's `htmlLines` buffer. */
  datatype Block =
    | Open(kind: ListKind)
    | Close(kind: ListKind)
    | Rule
    | Heading(level: Level, text: string)
    | Item(kind: ListKind, text: string)
    | Para(text: string)
    | Blank

  // ---------------------------------------------------------------- escaping

  function EscapeChar(c: char): string {
    if c == '<' then "&lt;" else if c == '>' then "&gt;" else [c]
  }

  /** `text.replace(/</g, "&lt;").replace(/>/g, "&gt;")`. The two passes can be
      fused: the first pass introduces no `>`. */
  function Escape(s: string): string
    decreases |s|
  {
    if |s| == 0 then "" else EscapeChar(s[0]) + Escape(s[1..])
  }

  /** Escaped text holds no angle bracket, and text without one is left as
      it is. */
  lemma {:induction false} EscapeClean(s: string)
    ensures '<' !in Escape(s) && '>' !in Escape(s)
    ensures ('<' !in s && '>' !in s) ==> Escape(s) == s
    decreases |s|
  {
    if |s| > 0 {
      EscapeClean(s[1..]);
      EscapeCharFacts(s[0]);
      EscapeStep(s);
      if '<' !in s && '>' !in s {
        assert s[0] != '<' && s[0] != '>' && '<' !in s[1..] && '>' !in s[1..];
        assert s == [s[0]] + s[1..];
      }
    }
  }

  lemma EscapeCharFacts(c: char)
    ensures '<' !in EscapeChar(c) && '>' !in EscapeChar(c)
    ensures |EscapeChar(c)| == 1 + (if c == '<' || c == '>' then 3 else 0)
    ensures c != '<' && c != '>' ==> EscapeChar(c) == [c]
  {
  }

  /** Decoding undoes one escaped character other than `&`. */
  lemma UnescapeStep(c: char, rest: string)
    requires c != '&'
    ensures Unescape(EscapeChar(c) + rest) == [c] + Unescape(rest)
  {
    var e := EscapeChar(c) + rest;
    if c == '<' {
      assert e[..4] == "&lt;" && e[4..] == rest;
      assert Unescape(e) == "<" + Unescape(e[4..]);
    } else if c == '>' {
      assert e[..4] == "&gt;" && e[4..] == rest;
      assert !("&lt;" <= e) by { assert e[1] == 'g'; }
      assert Unescape(e) == ">" + Unescape(e[4..]);
    } else {
      assert e[0] == c && e[1..] == rest;
      assert !("&lt;" <= e) && !("&gt;" <= e);
    }
  }

  /** Decoding of the two entities `Escape` produces. */
  function Unescape(s: string): string
    decreases |s|
  {
    if |s| == 0 then ""
    else if "&lt;" <= s then "<" + Unescape(s[4..])
    else if "&gt;" <= s then ">" + Unescape(s[4..])
    else [s[0]] + Unescape(s[1..])
  }

  /** Escaping loses nothing on text that contains no `&`. */
  lemma {:induction false} EscapeRoundTrip(s: string)
    requires '&' !in s
    ensures Unescape(Escape(s)) == s
    decreases |s|
  {
    if |s| > 0 {
      EscapeRoundTrip(s[1..]);
      UnescapeStep(s[0], Escape(s[1..]));
      assert s == [s[0]] + s[1..];
    }
  }

  /** `&` is left alone, so a literal `&lt;` and a `<` escape alike: the
      escaping is not injective once `&` occurs. */
  lemma EscapeConflatesAmpersand(rest: string)
    ensures Escape("<" + rest) == Escape("&lt;" + rest) == "&lt;" + Escape(rest)
  {
    EscapeConcat("<", rest);
    EscapeConcat("&lt;", rest);
    EscapeClean("&lt;");
    assert Escape("<") == EscapeChar('<') + Escape("");
  }

  /** Each `<` and `>` grows by three characters. */
  lemma {:induction false} EscapeLength(s: string)
    ensures |Escape(s)| == |s| + 3 * Count(s, '<') + 3 * Count(s, '>')
    decreases |s|
  {
    if |s| > 0 {
      EscapeLength(s[1..]);
      EscapeStep(s);
      EscapeCharFacts(s[0]);
    }
  }

  lemma EscapeStep(s: string)
    requires |s| > 0
    ensures Escape(s) == EscapeChar(s[0]) + Escape(s[1..])
  {
  }

  /** Escaping works character by character. */
  lemma {:induction false} EscapeConcat(a: string, b: string)
    ensures Escape(a + b) == Escape(a) + Escape(b)
    decreases |a|
  {
    if |a| > 0 {
      EscapeConcat(a[1..], b);
      assert (a + b)[0] == a[0] && (a + b)[1..] == a[1..] + b;
      EscapeStep(a + b);
      EscapeStep(a);
      Assoc(EscapeChar(a[0]), Escape(a[1..]), Escape(b));
    } else {
      assert a + b == b;
    }
  }

  // ---------------------------------------------------------- classification

  /** Length of the prefix matched by `^\d+\.\s`, or 0 when it does not match:
      a match is digits, then the dot, then one whitespace character, which
      fixes its length (4 for `12. x`). */
  function NumberMarker(line: string): (n: nat)
    ensures n == 0 || 3 <= n <= |line|
    ensures n > 0 ==> AllDigits(line[..n - 2]) && line[n - 2] == '.' && IsSpace(line[n - 1])
  {
    var d := DigitRun(line);
    if 0 < d && d + 1 < |line| && line[d] == '.' && IsSpace(line[d + 1]) then d + 2 else 0
  }

  /** `NumberMarker` decides the regular expression `^\d+\.\s`, whose digit run
      can only be the maximal one. */
  lemma NumberMarkerMatchesRegex(line: string)
    ensures NumberMarker(line) > 0 <==>
      exists d | 0 < d && d + 1 < |line| :: AllDigits(line[..d]) && line[d] == '.' && IsSpace(line[d + 1])
  {
    var k := DigitRun(line);
    if exists d | 0 < d && d + 1 < |line| :: AllDigits(line[..d]) && line[d] == '.' && IsSpace(line[d + 1]) {
      var d :| 0 < d && d + 1 < |line| && AllDigits(line[..d]) && line[d] == '.' && IsSpace(line[d + 1]);
      assert k == d;
    }
  }

  predicate AllDigits(s: string) {
    forall i | 0 <= i < |s| :: IsDigit(s[i])
  }

  /** `line.match(/^(\*|\d+\.)\s/)`: the test that keeps an open list open. */
  predicate ContinuesList(line: string) {
    (|line| >= 2 && line[0] == '*' && IsSpace(line[1])) || NumberMarker(line) > 0
  }

  /** What the `if … else if …` chain of the loop body makes of a line. */
  datatype LineClass =
    | RuleLine
    | HeadingLine(level: Level, text: string)
    | BulletLine(text: string)
    | NumberedLine(text: string)
    | TextLine
    | BlankLine

  /** The branch taken for a line, in the order the source checks them. */
  function Classify(line: string): (c: LineClass)
    ensures c.RuleLine? <==> IsRuleLine(line)
    ensures c.HeadingLine? <==> !IsRuleLine(line) && HeadingLevel(line) > 0
    ensures c.BulletLine? <==> !IsRuleLine(line) && HeadingLevel(line) == 0 && StartsBullet(line)
    ensures c.NumberedLine? <==> !IsRuleLine(line) && HeadingLevel(line) == 0 && !StartsBullet(line) && NumberMarker(line) > 0
    ensures c.BlankLine? <==> IsBlank(line)
    ensures c.HeadingLine? ==> HeadingLevel(line) == c.level && c.text == line[c.level + 1..]
    ensures c.BulletLine? ==> c.text == line[2..]
    ensures c.NumberedLine? ==> ContinuesList(line) && c.text == line[NumberMarker(line)..]
    ensures c.TextLine? ==> !IsBlank(line)
  {
    if IsRuleLine(line) then RuleLine
    else if HeadingLevel(line) > 0 then HeadingLine(HeadingLevel(line), line[HeadingLevel(line) + 1..])
    else if StartsBullet(line) then BulletLine(line[2..])
    else if NumberMarker(line) > 0 then NumberedLine(line[NumberMarker(line)..])
    else if Trim(line) != "" then TextLine
    else BlankLine
  }

  /** `line.trim() === '---'`. */
  predicate IsRuleLine(line: string) {
    Trim(line) == "---"
  }

  /** `line.startsWith('* ')`. */
  predicate StartsBullet(line: string) {
    "* " <= line
  }

  /** 3, 2 or 1 when the line starts with `### `, `## ` or `# ` (checked in
      that order), 0 otherwise. */
  function HeadingLevel(line: string): (n: nat)
    ensures n <= 3
    ensures n > 0 ==> n < |line| && line[..n] == Hashes(n) && line[n] == ' '
  {
    if "### " <= line then 3
    else if "## " <= line then 2
    else if "# " <= line then 1
    else 0
  }

  /** `n` hash signs. */
  function Hashes(n: nat): (r: string)
    ensures |r| == n && forall i | 0 <= i < n :: r[i] == '#'
  {
    if n == 0 then "" else "#" + Hashes(n - 1)
  }

  /** A line of one to three `#` and a space is a heading of that level carrying
      the rest of the line; the three prefixes exclude each other, so the
      longest one decides. */
  lemma ClassifyHeading(n: Level, text: string)
    ensures Classify(Hashes(n) + " " + text) == HeadingLine(n, text)
  {
    var line := Hashes(n) + " " + text;
    TrimStartsWith(line);
    HeadingLevelOf(n, text);
    assert line[n + 1..] == text;
  }

  lemma HeadingLevelOf(n: Level, text: string)
    ensures HeadingLevel(Hashes(n) + " " + text) == n
  {
    var line := Hashes(n) + " " + text;
    assert line[n] == ' ';
    if n == 3 {
      assert line[..4] == "### ";
    } else if n == 2 {
      assert line[..3] == "## ";
    } else {
      assert line[..2] == "# ";
    }
  }

  /** A line `* text` is a bullet carrying `text`. */
  lemma ClassifyBullet(text: string)
    ensures Classify("* " + text) == BulletLine(text)
  {
    var line := "* " + text;
    TrimStartsWith(line);
    assert "* " <= line;
  }

  /** A non-blank line that is no rule, heading or item becomes a paragraph
      wrapping the whole line, after any open list is closed. */
  lemma ParagraphLine(st: RenderState, line: string)
    requires !IsBlank(line) && !IsRuleLine(line) && HeadingLevel(line) == 0
    requires !StartsBullet(line) && NumberMarker(line) == 0
    ensures Classify(line) == TextLine
    ensures Step(st, line) == RenderState(CloseIfNotItem(st, line).out + [Para(line)], CloseIfNotItem(st, line).mode)
  {
  }

  /** A line whose first character is neither whitespace nor `-` is not a rule. */
  lemma TrimStartsWith(line: string)
    requires |line| > 0 && !IsSpace(line[0]) && line[0] != '-'
    ensures Trim(line) != "---"
  {
    TrimKeepsFirst(line);
  }

  // ------------------------------------------------------------------ blocks

  /** The string the source pushes for each block. */
  function Render(b: Block): string {
    match b
    case Open(k) => "<" + TagName(k) + ">"
    case Close(k) => "</" + TagName(k) + ">"
    case Rule => "<hr/>"
    case Heading(n, t) => "<h" + [LevelDigit(n)] + ">" + t + "</h" + [LevelDigit(n)] + ">"
    case Item(_, t) => "<li>" + t + "</li>"
    case Para(t) => "<p>" + t + "</p>"
    case Blank => ""
  }

  function TagName(k: ListKind): string {
    match k
    case Ul => "ul"
    case Ol => "ol"
  }

  function LevelDigit(n: Level): char {
    if n == 1 then '1' else if n == 2 then '2' else '3'
  }

  /** Only a blank entry renders as the empty string, so the source's test
      `htmlLines[htmlLines.length - 1] !== ''` is a test for `Blank`. */
  lemma RenderEmptyIff(b: Block)
    ensures Render(b) == "" <==> b.Blank?
  {
    if !b.Blank? {
      assert Render(b)[0] == '<';
    }
  }

  // --------------------------------------------------------------- the fold

  /** `htmlLines` and `inList` between two iterations of the loop. */
  datatype RenderState = RenderState(out: seq<Block>, mode: ListMode)

  const Start := RenderState([], NoList)

  /** The source's first `if`: close an open list on a line that does not look
      like an item. */
  function CloseIfNotItem(st: RenderState, line: string): RenderState {
    if st.mode.InList? && !ContinuesList(line)
    then RenderState(st.out + [Close(st.mode.kind)], NoList)
    else st
  }

  /** Make sure list `k` is open, closing the other one first. */
  function OpenList(st: RenderState, k: ListKind): RenderState {
    if st.mode == InList(k) then st
    else
      var out := if st.mode.InList? then st.out + [Close(st.mode.kind)] else st.out;
      RenderState(out + [Open(k)], InList(k))
  }

  function Push(st: RenderState, b: Block): RenderState {
    st.(out := st.out + [b])
  }

  /** One iteration of `for (const line of lines)`. */
  function Step(st: RenderState, line: string): RenderState {
    StepWith(st, line, Classify(line))
  }

  /** The iteration for a line already classified as `c`. */
  function StepWith(st: RenderState, line: string, c: LineClass): RenderState {
    var s1 := CloseIfNotItem(st, line);
    match c
    case RuleLine => Push(s1, Rule)
    case HeadingLine(n, t) => Push(s1, Heading(n, t))
    case BulletLine(t) => Push(OpenList(s1, Ul), Item(Ul, t))
    case NumberedLine(t) => Push(OpenList(s1, Ol), Item(Ol, t))
    case TextLine => Push(s1, Para(line))
    case BlankLine =>
      if |s1.out| > 0 && Render(s1.out[|s1.out| - 1]) != "" then Push(s1, Blank) else s1
  }

  function Fold(st: RenderState, lines: seq<string>): RenderState
    decreases |lines|
  {
    if |lines| == 0 then st else Fold(Step(st, lines[0]), lines[1..])
  }

  /** The loop followed by `if (inList) htmlLines.push(...)`. */
  function Blocks(lines: seq<string>): seq<Block> {
    var st := Fold(Start, lines);
    if st.mode.InList? then st.out + [Close(st.mode.kind)] else st.out
  }

  // ------------------------------------------------------- structural claims

  /** The list that is open after reading a block, or `None` when the block is
      out of place: an `Open` while a list is open, a `Close` or item of the
      wrong list, or a heading, rule or blank inside a list. A paragraph may
      sit inside a list (see `TabAfterStarStaysInList`). */
  function Advance(m: ListMode, b: Block): Option<ListMode> {
    match b
    case Open(k) => if m == NoList then Some(InList(k)) else None
    case Close(k) => if m == InList(k) then Some(NoList) else None
    case Item(k, _) => if m == InList(k) then Some(m) else None
    case Para(_) => Some(m)
    case _ => if m == NoList then Some(m) else None
  }

  /** Reads a block sequence left to right. */
  function Scan(bs: seq<Block>): Option<ListMode>
    decreases |bs|
  {
    if |bs| == 0 then Some(NoList)
    else match Scan(bs[..|bs| - 1])
      case None => None
      case Some(m) => Advance(m, bs[|bs| - 1])
  }

  /** List tags are balanced and never nested: every list is opened with none
      open, items sit in a list of their own kind, and no list is left open. */
  predicate ListsBalanced(bs: seq<Block>) {
    Scan(bs) == Some(NoList)
  }

  /** No leading blank entry and never two blank entries in a row. */
  predicate BlanksCollapsed(bs: seq<Block>) {
    forall i | 0 <= i < |bs| && bs[i].Blank? :: i > 0 && !bs[i - 1].Blank?
  }

  /** Paragraphs only wrap lines with a non-whitespace character. */
  predicate ParasNonBlank(bs: seq<Block>) {
    forall i | 0 <= i < |bs| && bs[i].Para? :: !IsBlank(bs[i].text)
  }

  predicate Clean(s: string) {
    '<' !in s && '>' !in s
  }

  /** No block carries a `<` or `>` of its own. */
  predicate ContentClean(bs: seq<Block>) {
    forall i | 0 <= i < |bs| :: BlockClean(bs[i])
  }

  predicate BlockClean(b: Block) {
    match b
    case Heading(_, t) => Clean(t)
    case Item(_, t) => Clean(t)
    case Para(t) => Clean(t)
    case _ => true
  }

  predicate Invariant(st: RenderState) {
    Scan(st.out) == Some(st.mode) && BlanksCollapsed(st.out) && ParasNonBlank(st.out)
  }

  lemma ScanPush(bs: seq<Block>, b: Block)
    ensures Scan(bs + [b]) == (match Scan(bs) case None => None case Some(m) => Advance(m, b))
  {
    assert (bs + [b])[..|bs|] == bs;
  }

  lemma PushKeeps(st: RenderState, b: Block)
    requires Invariant(st)
    requires Advance(st.mode, b).Some?
    requires b.Blank? ==> |st.out| > 0 && !st.out[|st.out| - 1].Blank?
    requires b.Para? ==> !IsBlank(b.text)
    ensures Invariant(RenderState(st.out + [b], Advance(st.mode, b).value))
  {
    ScanPush(st.out, b);
  }

  lemma CloseIfNotItemKeeps(st: RenderState, line: string)
    requires Invariant(st)
    ensures Invariant(CloseIfNotItem(st, line))
    ensures CloseIfNotItem(st, line).mode == (if ContinuesList(line) then st.mode else NoList)
  {
    if st.mode.InList? && !ContinuesList(line) {
      PushKeeps(st, Close(st.mode.kind));
    }
  }

  lemma OpenListKeeps(st: RenderState, k: ListKind)
    requires Invariant(st)
    ensures Invariant(OpenList(st, k)) && OpenList(st, k).mode == InList(k)
  {
    if st.mode != InList(k) {
      var s1 := if st.mode.InList? then RenderState(st.out + [Close(st.mode.kind)], NoList) else st;
      if st.mode.InList? {
        PushKeeps(st, Close(st.mode.kind));
      }
      PushKeeps(s1, Open(k));
    }
  }

  /** Rules, headings and blank lines never look like list items, so they
      always find the list closed. */
  lemma OutsideListLines(line: string)
    requires Classify(line).RuleLine? || Classify(line).HeadingLine? || Classify(line).BlankLine?
    ensures !ContinuesList(line)
  {
    ListLineStart(line);
    var c := Classify(line);
    if c.RuleLine? && |line| > 0 && !IsSpace(line[0]) {
      TrimKeepsFirst(line);
    }
  }

  /** A line that continues a list starts with `*` or a digit. */
  lemma ListLineStart(line: string)
    ensures ContinuesList(line) ==> |line| > 0 && (line[0] == '*' || IsDigit(line[0]))
  {
  }

  lemma StepKeepsRule(st: RenderState, line: string)
    requires Invariant(st) && !ContinuesList(line)
    ensures Invariant(StepWith(st, line, RuleLine))
  {
    CloseIfNotItemKeeps(st, line);
    PushKeeps(CloseIfNotItem(st, line), Rule);
  }

  lemma StepKeepsHeading(st: RenderState, line: string, n: Level, t: string)
    requires Invariant(st) && !ContinuesList(line)
    ensures Invariant(StepWith(st, line, HeadingLine(n, t)))
  {
    CloseIfNotItemKeeps(st, line);
    PushKeeps(CloseIfNotItem(st, line), Heading(n, t));
  }

  lemma StepKeepsBlank(st: RenderState, line: string)
    requires Invariant(st) && !ContinuesList(line)
    ensures Invariant(StepWith(st, line, BlankLine))
  {
    var s1 := CloseIfNotItem(st, line);
    CloseIfNotItemKeeps(st, line);
    if |s1.out| > 0 && Render(s1.out[|s1.out| - 1]) != "" {
      RenderEmptyIff(s1.out[|s1.out| - 1]);
      PushKeeps(s1, Blank);
    }
  }

  lemma StepKeepsItem(st: RenderState, line: string, k: ListKind, t: string)
    requires Invariant(st)
    ensures Invariant(StepWith(st, line, if k == Ul then BulletLine(t) else NumberedLine(t)))
  {
    var s1 := CloseIfNotItem(st, line);
    CloseIfNotItemKeeps(st, line);
    OpenListKeeps(s1, k);
    PushKeeps(OpenList(s1, k), Item(k, t));
  }

  lemma StepKeepsText(st: RenderState, line: string)
    requires Invariant(st) && !IsBlank(line)
    ensures Invariant(StepWith(st, line, TextLine))
  {
    CloseIfNotItemKeeps(st, line);
    PushKeeps(CloseIfNotItem(st, line), Para(line));
  }

  /** Every iteration keeps the buffer well formed. */
  lemma StepKeeps(st: RenderState, line: string)
    requires Invariant(st)
    ensures Invariant(Step(st, line))
  {
    var c := Classify(line);
    if c.RuleLine? || c.HeadingLine? || c.BlankLine? {
      OutsideListLines(line);
    }
    match c
    case BulletLine(t) => StepKeepsItem(st, line, Ul, t);
    case NumberedLine(t) => StepKeepsItem(st, line, Ol, t);
    case TextLine => StepKeepsText(st, line);
    case RuleLine => StepKeepsRule(st, line);
    case HeadingLine(n, t) => StepKeepsHeading(st, line, n, t);
    case BlankLine => StepKeepsBlank(st, line);
  }

  lemma {:induction false} FoldKeeps(st: RenderState, lines: seq<string>)
    requires Invariant(st)
    ensures Invariant(Fold(st, lines))
    decreases |lines|
  {
    if |lines| > 0 {
      StepKeeps(st, lines[0]);
      FoldKeeps(Step(st, lines[0]), lines[1..]);
    }
  }

  /** The whole buffer: lists balanced and not nested (an open list is closed
      exactly once, at the end if need be), blank lines collapsed, and no
      paragraph around a blank line. */
  lemma BlocksWellFormed(lines: seq<string>)
    ensures ListsBalanced(Blocks(lines))
    ensures BlanksCollapsed(Blocks(lines))
    ensures ParasNonBlank(Blocks(lines))
  {
    FoldKeeps(Start, lines);
    var st := Fold(Start, lines);
    if st.mode.InList? {
      PushKeeps(st, Close(st.mode.kind));
    }
  }

  // ----------------------------------------------- escape before synthesis

  lemma CleanSuffix(line: string, k: nat)
    requires Clean(line) && k <= |line|
    ensures Clean(line[k..])
  {
  }

  lemma PushClean(bs: seq<Block>, b: Block)
    requires ContentClean(bs) && BlockClean(b)
    ensures ContentClean(bs + [b])
  {
  }

  lemma CloseClean(st: RenderState, line: string, k: ListKind)
    requires ContentClean(st.out)
    ensures ContentClean(CloseIfNotItem(st, line).out)
    ensures ContentClean(OpenList(CloseIfNotItem(st, line), k).out)
  {
  }

  lemma StepClean(st: RenderState, line: string)
    requires ContentClean(st.out) && Clean(line)
    ensures ContentClean(Step(st, line).out)
  {
    var s1 := CloseIfNotItem(st, line);
    CloseClean(st, line, Ul);
    CloseClean(st, line, Ol);
    match Classify(line)
    case HeadingLine(n, t) =>
      CleanSuffix(line, n + 1);
      PushClean(s1.out, Heading(n, t));
    case BulletLine(t) =>
      CleanSuffix(line, 2);
      PushClean(OpenList(s1, Ul).out, Item(Ul, t));
    case NumberedLine(t) =>
      CleanSuffix(line, NumberMarker(line));
      PushClean(OpenList(s1, Ol).out, Item(Ol, t));
    case TextLine =>
      PushClean(s1.out, Para(line));
    case RuleLine =>
      PushClean(s1.out, Rule);
    case BlankLine =>
      PushClean(s1.out, Blank);
  }

  lemma {:induction false} FoldClean(st: RenderState, lines: seq<string>)
    requires ContentClean(st.out)
    requires forall i | 0 <= i < |lines| :: Clean(lines[i])
    ensures ContentClean(Fold(st, lines).out)
    decreases |lines|
  {
    if |lines| > 0 {
      StepClean(st, lines[0]);
      FoldClean(Step(st, lines[0]), lines[1..]);
    }
  }

  /** When the lines carry no `<` or `>` (as after escaping), neither does any
      text the renderer places between its own tags. */
  lemma BlocksClean(lines: seq<string>)
    requires forall i | 0 <= i < |lines| :: Clean(lines[i])
    ensures ContentClean(Blocks(lines))
  {
    FoldClean(Start, lines);
  }

  // ------------------------------------------------------ concrete behaviour

  /** A `1.` item right after `*` items closes the bullet list before opening
      the numbered one. */
  lemma SwitchClosesOldList(out: seq<Block>, t: string)
    ensures Step(RenderState(out, InList(Ul)), "1. " + t)
         == RenderState(out + [Close(Ul), Open(Ol), Item(Ol, t)], InList(Ol))
  {
    var line := "1. " + t;
    assert DigitRun(line) == 1;
    assert NumberMarker(line) == 3;
    TrimStartsWith(line);
    assert !("### " <= line) && !("## " <= line) && !("# " <= line) && !("* " <= line);
  }

  /** A bullet line with no list open opens a bullet list. */
  lemma BulletOpensList(out: seq<Block>, t: string)
    ensures Step(RenderState(out, NoList), "* " + t) == RenderState(out + [Open(Ul), Item(Ul, t)], InList(Ul))
  {
    ClassifyBullet(t);
  }

  /** The close test accepts `*` followed by any whitespace but the bullet test
      wants `* `: inside a list, a line made of `*`, a tab and more text keeps
      the list open and becomes a paragraph inside it. */
  lemma TabAfterStarStaysInList(out: seq<Block>, k: ListKind, t: string)
    ensures Step(RenderState(out, InList(k)), "*\t" + t) == RenderState(out + [Para("*\t" + t)], InList(k))
  {
    var line := "*\t" + t;
    TrimStartsWith(line);
    assert ContinuesList(line);
    assert DigitRun(line) == 0;
    assert !StartsBullet(line) && HeadingLevel(line) == 0;
    assert Classify(line) == TextLine;
  }

  /** `12. ` is the marker `replace(/^\d+\.\s/, '')` strips: all four
      characters, leaving the item's text. */
  lemma NumberedItemText(t: string)
    ensures NumberMarker("12. " + t) == 4 && Classify("12. " + t) == NumberedLine(t)
  {
    var line := "12. " + t;
    assert DigitRun(line[2..]) == 0;
    assert DigitRun(line) == 2;
    assert !StartsBullet(line) && HeadingLevel(line) == 0;
    TrimStartsWith(line);
    assert !IsRuleLine(line);
    assert line[4..] == t;
  }

  /** `*` followed by a tab is neither a bullet nor a numbered item: it is a
      paragraph line. */
  lemma StarTabIsText(t: string)
    ensures Classify("*\t" + t) == TextLine
  {
    var line := "*\t" + t;
    assert line[0] == '*' && line[1] == '\t';
    TrimStartsWith(line);
    assert DigitRun(line) == 0;
    assert !StartsBullet(line) && HeadingLevel(line) == 0;
  }

  /** The two lines `* a` and `*`, tab, `b` render as one bullet list holding an
      item and a paragraph. */
  lemma BulletThenTabLine(a: string, b: string)
    ensures Blocks(["* " + a, "*\t" + b]) == [Open(Ul), Item(Ul, a), Para("*\t" + b), Close(Ul)]
  {
    BulletThenTabFold(a, b);
    BlocksOfOpenList(["* " + a, "*\t" + b], [Open(Ul), Item(Ul, a), Para("*\t" + b)], Ul);
  }

  lemma BulletThenTabFold(a: string, b: string)
    ensures Fold(Start, ["* " + a, "*\t" + b]) == RenderState([Open(Ul), Item(Ul, a), Para("*\t" + b)], InList(Ul))
  {
    var st1 := RenderState([Open(Ul), Item(Ul, a)], InList(Ul));
    FirstBullet(a);
    TabAfterStarStaysInList(st1.out, Ul, b);
    FoldTwo(Start, "* " + a, "*\t" + b);
    assert st1.out + [Para("*\t" + b)] == [Open(Ul), Item(Ul, a), Para("*\t" + b)];
  }

  lemma FirstBullet(a: string)
    ensures Step(Start, "* " + a) == RenderState([Open(Ul), Item(Ul, a)], InList(Ul))
  {
    BulletOpensList([], a);
    assert [] + [Open(Ul), Item(Ul, a)] == [Open(Ul), Item(Ul, a)];
  }

  /** When the loop ends inside a list, the list is closed. */
  lemma BlocksOfOpenList(lines: seq<string>, out: seq<Block>, k: ListKind)
    requires Fold(Start, lines) == RenderState(out, InList(k))
    ensures Blocks(lines) == out + [Close(k)]
  {
  }

  lemma FoldTwo(st: RenderState, l1: string, l2: string)
    ensures Fold(st, [l1, l2]) == Step(Step(st, l1), l2)
  {
    var lines := [l1, l2];
    assert lines[0] == l1 && lines[1..] == [l2] && [l2][1..] == [];
    assert Fold(st, lines) == Fold(Step(st, l1), [l2]);
    assert Fold(Step(st, l1), [l2]) == Fold(Step(Step(st, l1), l2), []);
  }
}

=== FILE: markdown_html.dfy ===
/** The string-level end of `markdownToHtml` (index.tsx): joining the buffer
    with newlines, removing `<p>\s*</p>`, rewriting `**x**` to
    `<strong>x</strong>`, and the claim that escaping before synthesis leaves no
    `<` or `>` in the output except inside the renderer's own tags. */
module MarkdownHtml {
  import opened Wrappers
  import opened Text
  import opened Seqs
  import opened Markdown

  // ------------------------------------------------------------ safe markup

  /** Every tag the renderer writes. */
  const Tags: set<string> := {
    "<ul>", "</ul>", "<ol>", "</ol>", "<li>", "</li>", "<p>", "</p>",
    "<h1>", "</h1>", "<h2>", "</h2>", "<h3>", "</h3>", "<hr/>",
    "<strong>", "</strong>"
  }

  predicate IsTag(t: string) {
    t in Tags
  }

  lemma TagFacts(t: string)
    requires IsTag(t)
    ensures |t| >= 3 && t[0] == '<' && t[|t| - 1] == '>' && '*' !in t
  {
  }

  /** `s` is a concatenation of the renderer's tags and of characters other
      than `<` and `>`: no markup but the renderer's own can appear in it. */
  ghost predicate SafeHtml(s: string)
    decreases |s|
  {
    if |s| == 0 then true
    else if s[0] == '<' then exists t | IsTag(t) && t <= s :: SafeHtml(s[|t|..])
    else s[0] != '>' && SafeHtml(s[1..])
  }

  /** One unit of safe markup: a tag, or one character other than `<`, `>`. */
  predicate Atom(h: string) {
    (|h| == 1 && h[0] != '<' && h[0] != '>') || IsTag(h)
  }

  /** An atom followed by safe text is safe. */
  lemma SafeAfterAtom(h: string, r: string)
    requires Atom(h) && SafeHtml(r)
    ensures SafeHtml(h + r)
  {
    var s := h + r;
    if IsTag(h) {
      TagFacts(h);
      assert s[0] == '<' && h <= s && s[|h|..] == r;
    } else {
      assert s[1..] == r;
    }
  }

  /** A non-empty safe string starts with an atom. */
  lemma SafeHead(s: string) returns (n: nat)
    requires SafeHtml(s) && |s| > 0
    ensures 0 < n <= |s| && Atom(s[..n]) && SafeHtml(s[n..])
  {
    if s[0] == '<' {
      var t :| IsTag(t) && t <= s && SafeHtml(s[|t|..]);
      TagFacts(t);
      n := |t|;
      assert s[..n] == t;
    } else {
      n := 1;
    }
  }

  lemma Regroup(a: string, b: string, n: nat)
    requires n <= |a|
    ensures a + b == a[..n] + (a[n..] + b)
  {
  }

  lemma {:induction false} SafeConcat(a: string, b: string)
    requires SafeHtml(a) && SafeHtml(b)
    ensures SafeHtml(a + b)
    decreases |a|
  {
    if |a| == 0 {
      assert a + b == b;
    } else {
      var n := SafeHead(a);
      SafeConcat(a[n..], b);
      SafeAfterAtom(a[..n], a[n..] + b);
      Regroup(a, b, n);
    }
  }

  lemma {:induction false} CleanIsSafe(s: string)
    requires Clean(s)
    ensures SafeHtml(s)
    decreases |s|
  {
    if |s| > 0 {
      assert s[0] in s;
      assert Clean(s[1..]) by {
        assert forall j | 0 <= j < |s[1..]| :: s[1..][j] in s;
      }
      CleanIsSafe(s[1..]);
    }
  }

  lemma TagIsSafe(t: string)
    requires IsTag(t)
    ensures SafeHtml(t)
  {
    TagFacts(t);
    assert t <= t && SafeHtml(t[|t|..]);
  }

  /** A block written as opening tag, text and closing tag. */
  function Parts(b: Block): (r: (string, string, string))
    ensures Render(b) == r.0 + r.1 + r.2
  {
    match b
    case Open(k) => (Render(b), "", "")
    case Close(k) => (Render(b), "", "")
    case Rule => ("<hr/>", "", "")
    case Heading(n, t) => ("<h" + [LevelDigit(n)] + ">", t, "</h" + [LevelDigit(n)] + ">")
    case Item(_, t) => ("<li>", t, "</li>")
    case Para(t) => ("<p>", t, "</p>")
    case Blank => ("", "", "")
  }

  lemma PartsAreTags(b: Block)
    ensures Parts(b).0 == "" || IsTag(Parts(b).0)
    ensures Parts(b).2 == "" || IsTag(Parts(b).2)
    ensures BlockClean(b) ==> Clean(Parts(b).1)
  {
    match b
    case Open(k) =>
      if k == Ul { assert Parts(b).0 == "<ul>"; } else { assert Parts(b).0 == "<ol>"; }
    case Close(k) =>
      if k == Ul { assert Parts(b).0 == "</ul>"; } else { assert Parts(b).0 == "</ol>"; }
    case Heading(n, t) =>
      if n == 1 {
        assert Parts(b).0 == "<h1>" && Parts(b).2 == "</h1>";
      } else if n == 2 {
        assert Parts(b).0 == "<h2>" && Parts(b).2 == "</h2>";
      } else {
        assert Parts(b).0 == "<h3>" && Parts(b).2 == "</h3>";
      }
    case _ =>
  }

  lemma RenderSafe(b: Block)
    requires BlockClean(b)
    ensures SafeHtml(Render(b))
  {
    var (p, t, q) := Parts(b);
    PartsAreTags(b);
    if p != "" { TagIsSafe(p); }
    if q != "" { TagIsSafe(q); }
    CleanIsSafe(t);
    SafeConcat(p, t);
    SafeConcat(p + t, q);
  }

  /** `htmlLines`, as strings. */
  function RenderAll(bs: seq<Block>): (r: seq<string>)
    ensures |r| == |bs| && forall i | 0 <= i < |bs| :: r[i] == Render(bs[i])
  {
    seq(|bs|, i requires 0 <= i < |bs| => Render(bs[i]))
  }

  lemma {:induction false} JoinSafe(bs: seq<Block>)
    requires ContentClean(bs)
    ensures SafeHtml(Join(RenderAll(bs), "\n"))
    decreases |bs|
  {
    if |bs| == 1 {
      RenderSafe(bs[0]);
    } else if |bs| > 1 {
      RenderSafe(bs[0]);
      assert RenderAll(bs)[1..] == RenderAll(bs[1..]);
      JoinSafe(bs[1..]);
      CleanIsSafe("\n");
      SafeConcat(Render(bs[0]), "\n");
      SafeConcat(Render(bs[0]) + "\n", Join(RenderAll(bs[1..]), "\n"));
    }
  }

  // ------------------------------------------------- removing empty <p></p>

  /** Length of a match of `<p>\s*<\/p>` at the start of `s`. The `\s*` run
      is maximal: `</p>` starts with `<`, which is not whitespace, so no
      shorter run could be followed by it. */
  function EmptyParaAt(s: string): (r: Option<nat>)
    ensures r.Some? ==> 7 <= r.value <= |s|
  {
    if "<p>" <= s then
      var k := 3 + LeadingSpaces(s[3..]);
      if "</p>" <= s[k..] then Some(k + 4) else None
    else None
  }

  /** `.replace(/<p>\s*<\/p>/g, '')`: scanning left to right, each match is
      dropped and scanning resumes after it. */
  function StripEmptyParagraphs(s: string): string
    decreases |s|
  {
    if |s| == 0 then ""
    else match EmptyParaAt(s)
      case Some(n) => StripEmptyParagraphs(s[n..])
      case None => [s[0]] + StripEmptyParagraphs(s[1..])
  }

  lemma StripStep(s: string)
    requires |s| > 0 && EmptyParaAt(s).None?
    ensures StripEmptyParagraphs(s) == [s[0]] + StripEmptyParagraphs(s[1..])
  {
  }

  lemma ShiftHead(s: string, n: nat)
    requires 0 < n <= |s|
    ensures s[..n] == [s[0]] + s[1..][..n - 1] && s[1..][n - 1..] == s[n..]
  {
  }

  /** Where no match starts among the first `n` characters, they are copied. */
  lemma {:induction false} StripCopies(s: string, n: nat)
    requires n <= |s|
    requires forall i | 0 <= i < n :: EmptyParaAt(s[i..]).None?
    ensures StripEmptyParagraphs(s) == s[..n] + StripEmptyParagraphs(s[n..])
    decreases n
  {
    if n == 0 {
      assert s[0..] == s && s[..0] == [];
    } else {
      NoMatchShift(s, n);
      StripCopies(s[1..], n - 1);
      StripCopiesStep(s, n);
    }
  }

  lemma NoMatchShift(s: string, n: nat)
    requires 0 < n <= |s|
    requires forall i | 0 <= i < n :: EmptyParaAt(s[i..]).None?
    ensures EmptyParaAt(s).None?
    ensures forall i | 0 <= i < n - 1 :: EmptyParaAt(s[1..][i..]).None?
  {
    assert s[0..] == s;
    forall i | 0 <= i < n - 1
      ensures EmptyParaAt(s[1..][i..]).None?
    {
      assert s[1..][i..] == s[i + 1..];
    }
  }

  lemma StripCopiesStep(s: string, n: nat)
    requires 0 < n <= |s| && EmptyParaAt(s).None?
    requires StripEmptyParagraphs(s[1..]) == s[1..][..n - 1] + StripEmptyParagraphs(s[1..][n - 1..])
    ensures StripEmptyParagraphs(s) == s[..n] + StripEmptyParagraphs(s[n..])
  {
    StripStep(s);
    ShiftHead(s, n);
    Assoc([s[0]], s[1..][..n - 1], StripEmptyParagraphs(s[n..]));
  }

  /** A string that does not start with `<p` starts no match. */
  lemma NoMatchUnlessP(s: string)
    requires !(|s| >= 2 && s[0] == '<' && s[1] == 'p')
    ensures EmptyParaAt(s).None?
  {
    if |s| >= 2 {
      assert s[..2] != "<p";
    }
  }

  /** A paragraph around non-blank, `<`-free text is not a match. */
  lemma NoMatchInPara(t: string, tail: string)
    requires Clean(t) && !IsBlank(t)
    ensures EmptyParaAt("<p>" + t + tail).None?
  {
    var s := "<p>" + t + tail;
    assert s[3..] == t + tail;
    var k := LeadingSpaces(t + tail);
    var m :| 0 <= m < |t| && !IsSpace(t[m]);
    assert (t + tail)[m] == t[m];
    assert k <= m;
    assert s[3 + k] == t[k];
    assert t[k] in t;
  }

  lemma WrappedNoMatch(p: string, t: string, q: string, tail: string, i: nat)
    requires p == "" || IsTag(p)
    requires q == "" || IsTag(q)
    requires p == "<p>" ==> !IsBlank(t)
    requires q != "<p>"
    requires Clean(t)
    requires i < |p + t + q|
    ensures EmptyParaAt((p + t + q + tail)[i..]).None?
  {
    var s := (p + t + q + tail)[i..];
    if i < |p| {
      TagFacts(p);
      if i == 0 && p == "<p>" {
        assert p + t + q + tail == "<p>" + t + (q + tail);
        NoMatchInPara(t, q + tail);
      } else if i == 0 {
        TagFacts(p);
        TagsHaveOneLt(p, 1);
        assert s[1] == p[1];
        NoMatchUnlessP(s);
      } else {
        TagsHaveOneLt(p, i);
        assert s[0] == p[i];
        NoMatchUnlessP(s);
      }
    } else if i < |p| + |t| {
      assert s[0] == t[i - |p|];
      assert t[i - |p|] in t;
      NoMatchUnlessP(s);
    } else {
      var j := i - |p| - |t|;
      TagFacts(q);
      TagsHaveOneLt(q, if j == 0 then 1 else j);
      assert s[0] == q[j];
      if j == 0 {
        assert s[1] == q[1];
      }
      NoMatchUnlessP(s);
    }
  }

  /** Inside a tag only the first character is `<`, and only `<p>` goes on
      with `p`. */
  lemma TagsHaveOneLt(t: string, j: nat)
    requires IsTag(t) && 0 < j < |t|
    ensures t[j] != '<'
    ensures t[1] == 'p' ==> t == "<p>"
  {
  }

  /** No match of `<p>\s*<\/p>` starts inside a rendered block. */
  lemma RenderedNoMatch(b: Block, tail: string, i: nat)
    requires BlockClean(b) && (b.Para? ==> !IsBlank(b.text))
    requires i < |Render(b)|
    ensures EmptyParaAt((Render(b) + tail)[i..]).None?
  {
    var (p, t, q) := Parts(b);
    PartsAreTags(b);
    WrappedNoMatch(p, t, q, tail, i);
  }

  /** On the renderer's joined lines the removal of empty paragraphs changes
      nothing: paragraphs only ever wrap non-blank text. */
  lemma {:induction false} StripIsIdentity(bs: seq<Block>)
    requires ContentClean(bs) && ParasNonBlank(bs)
    ensures StripEmptyParagraphs(Join(RenderAll(bs), "\n")) == Join(RenderAll(bs), "\n")
    decreases |bs|
  {
    if |bs| > 0 {
      HeadAndTail(bs);
      if |bs| == 1 {
        LineAlone(bs[0]);
      } else {
        StripIsIdentity(bs[1..]);
        LineThenRest(bs[0], Join(RenderAll(bs[1..]), "\n"));
      }
    }
  }

  /** The joined rendering split at its first line, with the facts the
      first block and the rest inherit. */
  lemma HeadAndTail(bs: seq<Block>)
    requires |bs| > 0 && ContentClean(bs) && ParasNonBlank(bs)
    ensures BlockClean(bs[0]) && (bs[0].Para? ==> !IsBlank(bs[0].text))
    ensures ContentClean(bs[1..]) && ParasNonBlank(bs[1..])
    ensures |bs| == 1 ==> Join(RenderAll(bs), "\n") == Render(bs[0])
    ensures |bs| > 1 ==> Join(RenderAll(bs), "\n") == Render(bs[0]) + ("\n" + Join(RenderAll(bs[1..]), "\n"))
  {
    assert forall i | 0 <= i < |bs| - 1 :: bs[1..][i] == bs[i + 1];
    assert RenderAll(bs)[1..] == RenderAll(bs[1..]);
  }

  /** A rendered block followed by a newline and a string the strip pass
      leaves alone is left alone too. */
  lemma LineThenRest(b: Block, rest: string)
    requires BlockClean(b) && (b.Para? ==> !IsBlank(b.text))
    requires StripEmptyParagraphs(rest) == rest
    ensures StripEmptyParagraphs(Render(b) + ("\n" + rest)) == Render(b) + ("\n" + rest)
  {
    var line := Render(b);
    var s := line + ("\n" + rest);
    NoMatchThroughNewline(b, rest);
    StripCopies(s, |line| + 1);
    LineSplit(line, rest);
    Assoc(line, "\n", rest);
  }

  lemma NoMatchThroughNewline(b: Block, rest: string)
    requires BlockClean(b) && (b.Para? ==> !IsBlank(b.text))
    ensures forall i | 0 <= i < |Render(b)| + 1 :: EmptyParaAt((Render(b) + ("\n" + rest))[i..]).None?
  {
    NoMatchInLine(b, "\n" + rest);
    NewlineNoMatch(Render(b), rest);
  }

  lemma NewlineNoMatch(line: string, rest: string)
    ensures EmptyParaAt((line + ("\n" + rest))[|line|..]).None?
  {
    assert (line + ("\n" + rest))[|line|] == '\n';
    NoMatchUnlessP((line + ("\n" + rest))[|line|..]);
  }

  /** A rendered block on its own is left alone. */
  lemma LineAlone(b: Block)
    requires BlockClean(b) && (b.Para? ==> !IsBlank(b.text))
    ensures StripEmptyParagraphs(Render(b)) == Render(b)
  {
    var line := Render(b);
    NoMatchInLine(b, "");
    assert line + "" == line;
    StripCopies(line, |line|);
    assert line[..|line|] == line && line[|line|..] == [];
  }

  lemma NoMatchInLine(b: Block, tail: string)
    requires BlockClean(b) && (b.Para? ==> !IsBlank(b.text))
    ensures forall i | 0 <= i < |Render(b)| :: EmptyParaAt((Render(b) + tail)[i..]).None?
  {
    forall i | 0 <= i < |Render(b)| ensures EmptyParaAt((Render(b) + tail)[i..]).None? {
      RenderedNoMatch(b, tail, i);
    }
  }

  lemma LineSplit(line: string, rest: string)
    ensures var s := line + ("\n" + rest);
      s[..|line| + 1] == line + "\n" && s[|line| + 1..] == rest
  {
  }

  // ------------------------------------------------------------------ bold

  /** Characters that `.` does not match in a JavaScript regular expression. */
  predicate IsLineTerminator(c: char) {
    c == '\n' || c == '\r' || c as int == 0x2028 || c as int == 0x2029
  }

  /** Some line terminator lies in `s[k..m]`. */
  predicate BreakBetween(s: string, k: nat, m: nat)
    requires k <= m <= |s|
  {
    exists p | k <= p < m :: IsLineTerminator(s[p])
  }

  /** The lazy `(.*?)\*\*` of the bold pattern, tried from index `k`: the first
      `**` reached before any line terminator, and none when every `**` at or
      after `k` lies beyond a line terminator. */
  function ClosingMarker(s: string, k: nat): (r: Option<nat>)
    requires k <= |s|
    ensures r.Some? ==> k <= r.value && r.value + 2 <= |s| && s[r.value] == '*' && s[r.value + 1] == '*'
    ensures r.Some? ==> forall m | k <= m < r.value :: !IsLineTerminator(s[m]) && !(s[m] == '*' && s[m + 1] == '*')
    ensures r.None? ==> forall m | k <= m && m + 2 <= |s| && s[m] == '*' && s[m + 1] == '*' :: BreakBetween(s, k, m)
    decreases |s| - k
  {
    if k + 2 > |s| then None
    else if s[k] == '*' && s[k + 1] == '*' then Some(k)
    else if IsLineTerminator(s[k]) then None
    else ClosingMarker(s, k + 1)
  }

  // The global replace of `\*\*(.*?)\*\*` by `<strong>$1</strong>`.
  function Bold(s: string): string
    decreases |s|
  {
    if |s| < 2 then s
    else if s[0] == '*' && s[1] == '*' && ClosingMarker(s, 2).Some? then
      var j := ClosingMarker(s, 2).value;
      "<strong>" + s[2..j] + "</strong>" + Bold(s[j + 2..])
    else [s[0]] + Bold(s[1..])
  }

  /** Text without `*` goes through the bold pass untouched. */
  lemma BoldPlain(s: string)
    requires |s| > 0 && s[0] != '*'
    ensures Bold(s) == [s[0]] + Bold(s[1..])
  {
    if |s| == 1 {
      assert s[1..] == [];
    }
  }

  lemma Uncons(a: string, r: string)
    requires |a| > 0
    ensures (a + r)[0] == a[0] && (a + r)[1..] == a[1..] + r
    ensures a == [a[0]] + a[1..] && multiset(a[1..]) <= multiset(a)
  {
    assert a == [a[0]] + a[1..];
  }

  lemma {:induction false} BoldStarFree(a: string, r: string)
    requires '*' !in a
    ensures Bold(a + r) == a + Bold(r)
    decreases |a|
  {
    if |a| > 0 {
      Uncons(a, r);
      assert '*' !in multiset(a[1..]);
      BoldPlain(a + r);
      BoldStarFree(a[1..], r);
    } else {
      assert a + r == r;
    }
  }

  lemma ClosingMarkerAfter(x: string, rest: string)
    requires '*' !in x && forall m | 0 <= m < |x| :: !IsLineTerminator(x[m])
    ensures ClosingMarker("**" + x + "**" + rest, 2) == Some(2 + |x|)
  {
    var s := "**" + x + "**" + rest;
    var k := 2 + |x|;
    assert s[k] == '*' && s[k + 1] == '*';
    var m := k;
    while m > 2
      invariant 2 <= m <= k
      invariant ClosingMarker(s, m) == Some(k)
      decreases m
    {
      m := m - 1;
      assert s[m] == x[m - 2];
      assert x[m - 2] in x;
    }
  }

  /** A span `**x**` on one line, with no `*` inside, becomes `<strong>x</strong>`. */
  lemma BoldSpan(x: string, rest: string)
    requires '*' !in x && forall m | 0 <= m < |x| :: !IsLineTerminator(x[m])
    ensures Bold("**" + x + "**" + rest) == "<strong>" + x + "</strong>" + Bold(rest)
  {
    var s := "**" + x + "**" + rest;
    ClosingMarkerAfter(x, rest);
    assert s[2..2 + |x|] == x;
    assert s[2 + |x| + 2..] == rest;
  }

  /** Dropping a leading plain character keeps a string safe. */
  lemma SafeTail(s: string)
    requires SafeHtml(s) && |s| > 0 && s[0] != '<'
    ensures s[0] != '>' && SafeHtml(s[1..])
  {
  }

  /** Safe text cut just before a `*` leaves two safe halves: no tag
      contains a `*`, so the cut falls between atoms. */
  lemma {:induction false} SafeSplitAtStar(a: string, b: string)
    requires |b| > 0 && b[0] == '*' && SafeHtml(a + b)
    ensures SafeHtml(a) && SafeHtml(b)
    decreases |a|
  {
    if |a| == 0 {
      assert a + b == b;
    } else {
      var n := SafeHead(a + b);
      AtomBeforeStar(a, b, n);
      SplitInsideLeft(a, b, n);
      SafeSplitAtStar(a[n..], b);
      SafeAfterAtom(a[..n], a[n..]);
      assert a == a[..n] + a[n..];
    }
  }

  /** An atom at the start of `a + b` ends within `a` when `b` starts
      with `*`. */
  lemma AtomBeforeStar(a: string, b: string, n: nat)
    requires |a| > 0 && |b| > 0 && b[0] == '*'
    requires 0 < n <= |a + b| && Atom((a + b)[..n])
    ensures n <= |a|
  {
    var s := a + b;
    if n > |a| {
      assert s[..n][|a|] == '*';
      TagFacts(s[..n]);
      assert false;
    }
  }

  lemma SplitInsideLeft(a: string, b: string, n: nat)
    requires n <= |a|
    ensures (a + b)[..n] == a[..n] && (a + b)[n..] == a[n..] + b
  {
  }

  /** The bold pass only adds `<strong>` tags around text that was already safe. */
  lemma {:induction false} BoldKeepsSafe(s: string)
    requires SafeHtml(s)
    ensures SafeHtml(Bold(s))
    decreases |s|
  {
    if |s| >= 2 {
      if s[0] == '*' && s[1] == '*' && ClosingMarker(s, 2).Some? {
        var j := ClosingMarker(s, 2).value;
        SafeAroundSpan(s, j);
        BoldKeepsSafe(s[j + 2..]);
        BoldSafeSpan(s, j);
      } else if s[0] == '<' {
        var n := SafeHead(s);
        BoldKeepsSafe(s[n..]);
        BoldSafeTag(s, n);
      } else {
        SafeTail(s);
        BoldKeepsSafe(s[1..]);
        BoldSafeChar(s);
      }
    }
  }

  lemma BoldSpanStep(s: string, j: nat)
    requires |s| >= 2 && s[0] == '*' && s[1] == '*' && ClosingMarker(s, 2) == Some(j)
    ensures Bold(s) == "<strong>" + s[2..j] + "</strong>" + Bold(s[j + 2..])
  {
  }

  lemma BoldCharStep(s: string)
    requires |s| >= 2 && !(s[0] == '*' && s[1] == '*' && ClosingMarker(s, 2).Some?)
    ensures Bold(s) == [s[0]] + Bold(s[1..])
  {
  }

  lemma BoldSafeSpan(s: string, j: nat)
    requires |s| >= 2 && s[0] == '*' && s[1] == '*' && ClosingMarker(s, 2) == Some(j)
    requires SafeHtml(s[2..j]) && SafeHtml(Bold(s[j + 2..]))
    ensures SafeHtml(Bold(s))
  {
    BoldSpanStep(s, j);
    SafeStrong(s[2..j], Bold(s[j + 2..]));
  }

  lemma BoldSafeTag(s: string, n: nat)
    requires 0 < n <= |s| && s[0] == '<' && Atom(s[..n]) && SafeHtml(Bold(s[n..]))
    ensures SafeHtml(Bold(s))
  {
    var t := s[..n];
    TagFacts(t);
    assert s == t + s[n..];
    BoldStarFree(t, s[n..]);
    SafeAfterAtom(t, Bold(s[n..]));
  }

  lemma BoldSafeChar(s: string)
    requires |s| >= 2 && s[0] != '<' && s[0] != '>' && SafeHtml(Bold(s[1..]))
    requires !(s[0] == '*' && s[1] == '*' && ClosingMarker(s, 2).Some?)
    ensures SafeHtml(Bold(s))
  {
    BoldCharStep(s);
    SafeAfterAtom([s[0]], Bold(s[1..]));
  }

  lemma StrongTags()
    ensures IsTag("<strong>") && IsTag("</strong>")
  {
  }

  lemma Regroup4(o: string, x: string, c: string, r: string)
    ensures o + x + c + r == o + (x + (c + r))
  {
  }

  lemma SafeStrong(x: string, r: string)
    requires SafeHtml(x) && SafeHtml(r)
    ensures SafeHtml("<strong>" + x + "</strong>" + r)
  {
    var o, c := "<strong>", "</strong>";
    StrongTags();
    SafeAfterAtom(c, r);
    SafeConcat(x, c + r);
    SafeAfterAtom(o, x + (c + r));
    Regroup4(o, x, c, r);
  }

  lemma SafeDropStars(s: string)
    requires SafeHtml(s) && |s| >= 2 && s[0] == '*' && s[1] == '*'
    ensures SafeHtml(s[2..])
  {
    SafeTail(s);
    SafeTail(s[1..]);
    assert s[1..][1..] == s[2..];
  }

  lemma CutAt(s: string, i: nat, j: nat)
    requires i <= j <= |s|
    ensures s[i..] == s[i..j] + s[j..]
  {
  }

  /** Cutting `**x**` out of safe text leaves `x` and what follows safe. */
  lemma SafeAroundSpan(s: string, j: nat)
    requires SafeHtml(s) && 2 <= j && j + 2 <= |s|
    requires s[0] == '*' && s[1] == '*' && s[j] == '*' && s[j + 1] == '*'
    ensures SafeHtml(s[2..j]) && SafeHtml(s[j + 2..])
  {
    SafeDropStars(s);
    CutAt(s, 2, j);
    SafeSplitAtStar(s[2..j], s[j..]);
    SafeDropStars(s[j..]);
    assert s[j..][2..] == s[j + 2..];
  }

  // ------------------------------------------------------------ the whole

  /** The lines the loop reads: the escaped text split on newlines. */
  function Lines(text: string): (lines: seq<string>)
    ensures forall i | 0 <= i < |lines| :: Clean(lines[i]) && '\n' !in lines[i]
  {
    var e := Escape(text);
    EscapeClean(text);
    var lines := Split(e, '\n');
    assert forall i, j | 0 <= i < |lines| && 0 <= j < |lines[i]| :: lines[i][j] in e;
    lines
  }

  /** `markdownToHtml(text)`. Its contract only says the output is safe;
      `StripNeverFires` ties the output to the blocks the renderer builds:
      the rendered lines joined and passed through the bold replacement. */
  function MarkdownToHtml(text: string): (html: string)
    ensures text == "" ==> html == ""
    ensures SafeHtml(html)
  {
    if text == "" then ""
    else
      var bs := Blocks(Lines(text));
      var joined := Join(RenderAll(bs), "\n");
      BlocksClean(Lines(text));
      JoinSafe(bs);
      BlocksWellFormed(Lines(text));
      StripIsIdentity(bs);
      BoldKeepsSafe(StripEmptyParagraphs(joined));
      Bold(StripEmptyParagraphs(joined))
  }

  /** The empty-paragraph removal never fires on what the renderer builds,
      so the output is the joined lines with only the bold pass applied. */
  lemma StripNeverFires(text: string)
    requires text != ""
    ensures MarkdownToHtml(text) == Bold(Join(RenderAll(Blocks(Lines(text))), "\n"))
  {
    BlocksClean(Lines(text));
    BlocksWellFormed(Lines(text));
    StripIsIdentity(Blocks(Lines(text)));
  }

  /** Text without `*` is left as it is by the bold pass. */
  lemma BoldIdentity(s: string)
    requires '*' !in s
    ensures Bold(s) == s
  {
    BoldStarFree(s, "");
    assert s + "" == s;
  }
}

=== FILE: seqs.dfy ===
/** Sequence operations behind the application's state updates: `Array.filter`,
    `Array.find` by key, and `Array.map` that replaces the element with a given
    key. Keys are passed as a key function so that users, courses,
    announcements and exercises share one definition. */
module Seqs {
  import opened Wrappers

  /** `s.filter(p)`: the elements satisfying `p`, in their original order
      (`FilterConcat` states the order). */
  function Filter<T>(p: T -> bool, s: seq<T>): (r: seq<T>)
    ensures |r| <= |s|
    ensures forall i | 0 <= i < |r| :: r[i] in s && p(r[i])
    ensures forall i | 0 <= i < |s| && p(s[i]) :: s[i] in r
    decreases |s|
  {
    if |s| == 0 then [] else (if p(s[0]) then [s[0]] else []) + Filter(p, s[1..])
  }

  lemma FilterSkip<T>(p: T -> bool, s: seq<T>)
    requires |s| > 0 && !p(s[0])
    ensures Filter(p, s) == Filter(p, s[1..])
  {
    assert [] + Filter(p, s[1..]) == Filter(p, s[1..]);
  }

  lemma FilterTake<T>(p: T -> bool, s: seq<T>)
    requires |s| > 0 && p(s[0])
    ensures Filter(p, s) == [s[0]] + Filter(p, s[1..])
  {
  }

  /** Concatenation regrouped, for proofs that build sequences piecewise. */
  lemma Assoc<T>(x: seq<T>, y: seq<T>, z: seq<T>)
    ensures x + (y + z) == x + y + z
  {
  }

  /** Filtering distributes over concatenation, so relative order is kept. */
  lemma {:induction false} FilterConcat<T>(p: T -> bool, a: seq<T>, b: seq<T>)
    ensures Filter(p, a + b) == Filter(p, a) + Filter(p, b)
    decreases |a|
  {
    if |a| == 0 {
      assert a + b == b;
    } else {
      FilterConcat(p, a[1..], b);
      assert (a + b)[0] == a[0] && (a + b)[1..] == a[1..] + b;
      if p(a[0]) {
        FilterTake(p, a);
        FilterTake(p, a + b);
        Assoc([a[0]], Filter(p, a[1..]), Filter(p, b));
      } else {
        FilterSkip(p, a);
        FilterSkip(p, a + b);
      }
    }
  }

  /** `s.find(e => key(e) === k)`: an element with key `k`, when there is one
      (the first one, by `FindByIsFirst`). */
  function FindBy<T, K(==)>(key: T -> K, s: seq<T>, k: K): (r: Option<T>)
    ensures r.None? <==> forall i | 0 <= i < |s| :: key(s[i]) != k
    ensures r.Some? ==> r.value in s && key(r.value) == k
    decreases |s|
  {
    if |s| == 0 then None
    else if key(s[0]) == k then Some(s[0])
    else FindBy(key, s[1..], k)
  }

  /** The element `FindBy` returns is the first one with the key. */
  lemma {:induction false} FindByIsFirst<T, K>(key: T -> K, s: seq<T>, k: K, i: nat)
    requires i < |s| && key(s[i]) == k
    ensures FindBy(key, s, k).Some?
    ensures (forall j | 0 <= j < i :: key(s[j]) != k) ==> FindBy(key, s, k) == Some(s[i])
    decreases i
  {
    if i > 0 && key(s[0]) != k {
      FindByIsFirst(key, s[1..], k, i - 1);
      assert forall j | 0 <= j < i - 1 :: s[1..][j] == s[j + 1];
    }
  }

  /** Every element with key `k` that has no earlier one is what `FindBy`
      returns. */
  lemma FindByFirst<T, K>(key: T -> K, s: seq<T>, k: K)
    ensures forall i | 0 <= i < |s| && key(s[i]) == k && (forall j | 0 <= j < i :: key(s[j]) != k) ::
      FindBy(key, s, k) == Some(s[i])
  {
    forall i | 0 <= i < |s| && key(s[i]) == k && (forall j | 0 <= j < i :: key(s[j]) != k)
      ensures FindBy(key, s, k) == Some(s[i])
    {
      FindByIsFirst(key, s, k, i);
    }
  }

  /** `s.map(e => key(e) === key(x) ? x : e)`. */
  function ReplaceBy<T, K(==)>(key: T -> K, s: seq<T>, x: T): (r: seq<T>)
    ensures |r| == |s|
    ensures forall i | 0 <= i < |s| :: r[i] == (if key(s[i]) == key(x) then x else s[i])
  {
    seq(|s|, i requires 0 <= i < |s| => if key(s[i]) == key(x) then x else s[i])
  }

  /** `s.filter(e => key(e) !== k)`. */
  function RemoveBy<T, K(==)>(key: T -> K, s: seq<T>, k: K): (r: seq<T>)
    ensures forall i | 0 <= i < |r| :: key(r[i]) != k && r[i] in s
    ensures forall i | 0 <= i < |s| && key(s[i]) != k :: s[i] in r
  {
    Filter(e => key(e) != k, s)
  }

  /** One step of `RemoveBy`. */
  lemma RemoveByCons<T, K>(key: T -> K, s: seq<T>, k: K)
    requires |s| > 0
    ensures RemoveBy(key, s, k) == (if key(s[0]) != k then [s[0]] else []) + RemoveBy(key, s[1..], k)
  {
  }

  /** Removal works element by element: it distributes over concatenation
      and keeps a single element iff its key differs, so the remaining
      elements keep their order and their repetitions. */
  lemma {:induction false} RemoveByConcat<T, K>(key: T -> K, a: seq<T>, b: seq<T>, k: K)
    ensures RemoveBy(key, a + b, k) == RemoveBy(key, a, k) + RemoveBy(key, b, k)
    decreases |a|
  {
    if |a| == 0 {
      assert a + b == b;
      assert RemoveBy(key, a, k) == [];
    } else {
      RemoveByConcat(key, a[1..], b, k);
      assert (a + b)[0] == a[0] && (a + b)[1..] == a[1..] + b;
      RemoveByCons(key, a, k);
      RemoveByCons(key, a + b, k);
      var h := if key(a[0]) != k then [a[0]] else [];
      Assoc(h, RemoveBy(key, a[1..], k), RemoveBy(key, b, k));
    }
  }

  lemma RemoveBySingle<T, K>(key: T -> K, x: T, k: K)
    ensures RemoveBy(key, [x], k) == if key(x) != k then [x] else []
  {
    RemoveByCons(key, [x], k);
    assert [x][1..] == [];
    assert RemoveBy(key, [], k) == [];
  }

  /** After removing key `k`, looking `k` up finds nothing, and every other
      key finds what it found before. */
  lemma {:induction false} FindAfterRemove<T, K>(key: T -> K, s: seq<T>, k: K, other: K)
    ensures FindBy(key, RemoveBy(key, s, k), k) == None
    ensures other != k ==> FindBy(key, RemoveBy(key, s, k), other) == FindBy(key, s, other)
    decreases |s|
  {
    if |s| > 0 {
      FindAfterRemove(key, s[1..], k, other);
      RemoveByCons(key, s, k);
      var tail := RemoveBy(key, s[1..], k);
      if key(s[0]) != k {
        var r := [s[0]] + tail;
        assert r[0] == s[0] && r[1..] == tail;
        assert FindBy(key, r, other) == if key(s[0]) == other then Some(s[0]) else FindBy(key, tail, other);
        assert FindBy(key, r, k) == FindBy(key, tail, k);
      } else {
        assert [] + tail == tail;
        assert other != k ==> FindBy(key, s, other) == FindBy(key, s[1..], other);
      }
    }
  }

  /** After replacing by the key of `x`, looking that key up finds `x` exactly when
      some element had that key, and every other key finds what it found before. */
  lemma {:induction false} FindAfterReplace<T, K>(key: T -> K, s: seq<T>, x: T, other: K)
    ensures FindBy(key, ReplaceBy(key, s, x), key(x)) == (if FindBy(key, s, key(x)).Some? then Some(x) else None)
    ensures other != key(x) ==> FindBy(key, ReplaceBy(key, s, x), other) == FindBy(key, s, other)
    decreases |s|
  {
    if |s| > 0 {
      FindAfterReplace(key, s[1..], x, other);
      assert ReplaceBy(key, s, x)[1..] == ReplaceBy(key, s[1..], x);
    }
  }

  /** Appending `x` under a key no element has makes `x` the answer for that key
      and leaves every other lookup alone. */
  lemma {:induction false} FindAfterAppend<T, K>(key: T -> K, s: seq<T>, x: T, other: K)
    requires FindBy(key, s, key(x)).None?
    ensures FindBy(key, s + [x], key(x)) == Some(x)
    ensures other != key(x) ==> FindBy(key, s + [x], other) == FindBy(key, s, other)
    decreases |s|
  {
    if |s| > 0 {
      assert (s + [x])[1..] == s[1..] + [x];
      FindAfterAppend(key, s[1..], x, other);
    }
  }
}

=== FILE: text.dfy ===
/** String primitives of the JavaScript runtime that the application relies on:
    the whitespace class shared by `String.prototype.trim`, the regular
    expression escape `\s` and `parseInt`; `split` on a one-character separator,
    `join`; and `parseInt(s, 10)` together with the decimal rendering of an
    integer used by template literals. */
module Text {
  import opened Wrappers

  /** ECMAScript WhiteSpace and LineTerminator code points. */
  predicate IsSpace(c: char) {
    var n := c as int;
    n == 0x09 || n == 0x0A || n == 0x0B || n == 0x0C || n == 0x0D || n == 0x20
    || n == 0xA0 || n == 0x1680 || (0x2000 <= n <= 0x200A)
    || n == 0x2028 || n == 0x2029 || n == 0x202F || n == 0x205F
    || n == 0x3000 || n == 0xFEFF
  }

  /** `\d` in a regular expression: ASCII digits only. */
  predicate IsDigit(c: char) {
    '0' <= c <= '9'
  }

  /** True when `s.trim() === ''`. */
  predicate IsBlank(s: string) {
    forall i | 0 <= i < |s| :: IsSpace(s[i])
  }

  /** Number of leading whitespace characters. */
  function LeadingSpaces(s: string): (k: nat)
    ensures k <= |s|
    ensures forall i | 0 <= i < k :: IsSpace(s[i])
    ensures k < |s| ==> !IsSpace(s[k])
  {
    if |s| == 0 || !IsSpace(s[0]) then 0 else 1 + LeadingSpaces(s[1..])
  }

  /** Number of trailing whitespace characters. */
  function TrailingSpaces(s: string): (k: nat)
    ensures k <= |s|
    ensures forall i | |s| - k <= i < |s| :: IsSpace(s[i])
    ensures k < |s| ==> !IsSpace(s[|s| - k - 1])
  {
    if |s| == 0 || !IsSpace(s[|s| - 1]) then 0 else 1 + TrailingSpaces(s[..|s| - 1])
  }

  /** Number of leading ASCII digits. */
  function DigitRun(s: string): (k: nat)
    ensures k <= |s|
    ensures forall i | 0 <= i < k :: IsDigit(s[i])
    ensures k < |s| ==> !IsDigit(s[k])
  {
    if |s| == 0 || !IsDigit(s[0]) then 0 else 1 + DigitRun(s[1..])
  }

  /** `s.trim()`: the piece left after removing whitespace at both ends. */
  function Trim(s: string): (r: string)
    ensures IsBlank(s) <==> r == []
    ensures r != [] ==> !IsSpace(r[0]) && !IsSpace(r[|r| - 1])
  {
    var i := LeadingSpaces(s);
    var u := s[i..];
    assert IsBlank(s) ==> i == |s|;
    u[..|u| - TrailingSpaces(u)]
  }

  /** `Trim` removes only whitespace, and only at the ends. */
  lemma TrimShape(s: string)
    ensures exists i, j :: 0 <= i <= j <= |s| && Trim(s) == s[i..j] && IsBlank(s[..i]) && IsBlank(s[j..])
  {
    var i := LeadingSpaces(s);
    var u := s[i..];
    var j := i + |u| - TrailingSpaces(u);
    LeadBlank(s);
    TrailBlank(u);
    assert u[|u| - TrailingSpaces(u)..] == s[j..];
    assert u[..|u| - TrailingSpaces(u)] == s[i..j];
  }

  lemma LeadBlank(s: string)
    ensures IsBlank(s[..LeadingSpaces(s)])
  {
  }

  lemma TrailBlank(s: string)
    ensures IsBlank(s[|s| - TrailingSpaces(s)..])
  {
    var k := TrailingSpaces(s);
    var t := s[|s| - k..];
    forall m | 0 <= m < |t| ensures IsSpace(t[m]) {
      assert t[m] == s[|s| - k + m];
    }
  }

  /** A string that does not start with whitespace keeps its first character. */
  lemma TrimKeepsFirst(s: string)
    requires |s| > 0 && !IsSpace(s[0])
    ensures Trim(s) != [] && Trim(s)[0] == s[0]
  {
  }

  /** A string with no whitespace at either end is its own trim. */
  lemma TrimUnchanged(s: string)
    requires |s| > 0 && !IsSpace(s[0]) && !IsSpace(s[|s| - 1])
    ensures Trim(s) == s
  {
    assert LeadingSpaces(s) == 0;
    assert s[0..] == s;
  }

  /** `s.split(sep)` for a one-character separator: the maximal separator-free
      pieces, one more than there are separators. */
  function Split(s: string, sep: char): (r: seq<string>)
    ensures |r| == Count(s, sep) + 1
    ensures forall i | 0 <= i < |r| :: sep !in r[i]
    ensures forall i, j | 0 <= i < |r| && 0 <= j < |r[i]| :: r[i][j] in s
    decreases |s|
  {
    if |s| == 0 then [""]
    else
      var rest := Split(s[1..], sep);
      assert forall i, j | 0 <= i < |rest| && 0 <= j < |rest[i]| :: rest[i][j] in s by {
        forall i, j | 0 <= i < |rest| && 0 <= j < |rest[i]| ensures rest[i][j] in s {
          assert rest[i][j] in s[1..];
        }
      }
      if s[0] == sep then [""] + rest
      else [[s[0]] + rest[0]] + rest[1..]
  }

  /** Occurrences of `c` in `s`. */
  function Count(s: string, c: char): nat
    decreases |s|
  {
    if |s| == 0 then 0 else (if s[0] == c then 1 else 0) + Count(s[1..], c)
  }

  /** `parts.join(sep)`. */
  function Join(parts: seq<string>, sep: string): string
    decreases |parts|
  {
    if |parts| == 0 then ""
    else if |parts| == 1 then parts[0]
    else parts[0] + sep + Join(parts[1..], sep)
  }

  /** A join starts with its first piece and ends with its last. */
  lemma {:induction false} JoinEnds(parts: seq<string>, sep: string)
    requires |parts| >= 1
    ensures |Join(parts, sep)| >= |parts[0]| && |Join(parts, sep)| >= |parts[|parts| - 1]|
    ensures parts[0] <= Join(parts, sep)
    ensures parts[|parts| - 1] == Join(parts, sep)[|Join(parts, sep)| - |parts[|parts| - 1]|..]
    decreases |parts|
  {
    if |parts| > 1 {
      JoinEnds(parts[1..], sep);
      var j := Join(parts, sep);
      var r := Join(parts[1..], sep);
      assert j == parts[0] + (sep + r);
      assert j[|j| - |r|..] == r;
    }
  }

  /** A character in no piece and not in the separator is not in the join. */
  lemma {:induction false} JoinCharFree(parts: seq<string>, sep: string, c: char)
    requires c !in sep
    requires forall i | 0 <= i < |parts| :: c !in parts[i]
    ensures c !in Join(parts, sep)
    decreases |parts|
  {
    if |parts| > 1 {
      JoinCharFree(parts[1..], sep, c);
    }
  }

  /** Joining the pieces of a split with the same separator gives back the string. */
  lemma {:induction false} JoinSplit(s: string, sep: char)
    ensures Join(Split(s, sep), [sep]) == s
    decreases |s|
  {
    if |s| > 0 {
      var rest := Split(s[1..], sep);
      JoinSplit(s[1..], sep);
      if s[0] == sep {
        JoinEmptyHead(rest, [sep]);
      } else {
        JoinExtendHead(s[0], rest, [sep]);
      }
      assert s == [s[0]] + s[1..];
    }
  }

  lemma JoinEmptyHead(parts: seq<string>, sep: string)
    requires |parts| >= 1
    ensures Join([""] + parts, sep) == sep + Join(parts, sep)
  {
    assert ([""] + parts)[1..] == parts;
  }

  lemma JoinExtendHead(c: char, parts: seq<string>, sep: string)
    requires |parts| >= 1
    ensures Join([[c] + parts[0]] + parts[1..], sep) == [c] + Join(parts, sep)
  {
    var q := [[c] + parts[0]] + parts[1..];
    if |parts| > 1 {
      assert q[1..] == parts[1..];
    }
  }

  /** Splitting a join of separator-free pieces gives back the pieces. */
  lemma {:induction false} SplitJoin(parts: seq<string>, sep: char)
    requires |parts| >= 1
    requires forall i | 0 <= i < |parts| :: sep !in parts[i]
    ensures Split(Join(parts, [sep]), sep) == parts
    decreases |parts|
  {
    if |parts| == 1 {
      SplitSepFree(parts[0], sep);
    } else {
      SplitJoin(parts[1..], sep);
      SplitPrefix(parts[0], Join(parts[1..], [sep]), sep);
      assert parts[0] + [sep] + Join(parts[1..], [sep]) == parts[0] + ([sep] + Join(parts[1..], [sep]));
      assert [parts[0]] + parts[1..] == parts;
    }
  }

  /** A separator-free string splits into itself. */
  lemma {:induction false} SplitSepFree(s: string, sep: char)
    requires sep !in s
    ensures Split(s, sep) == [s]
    decreases |s|
  {
    if |s| > 0 {
      SplitSepFree(s[1..], sep);
      assert s == [s[0]] + s[1..];
    }
  }

  /** A separator-free head in front of a separator starts a new piece. */
  lemma {:induction false} SplitPrefix(a: string, b: string, sep: char)
    requires sep !in a
    ensures Split(a + ([sep] + b), sep) == [a] + Split(b, sep)
    decreases |a|
  {
    if |a| == 0 {
      assert a + ([sep] + b) == [sep] + b;
      assert ([sep] + b)[1..] == b;
    } else {
      SplitPrefix(a[1..], b, sep);
      assert (a + ([sep] + b))[1..] == a[1..] + ([sep] + b);
      assert [a[0]] + a[1..] == a;
    }
  }

  /** Numeric value of a string of decimal digits. */
  function DigitsValue(s: string): nat
    requires forall i | 0 <= i < |s| :: IsDigit(s[i])
    decreases |s|
  {
    if |s| == 0 then 0
    else
      assert IsDigit(s[|s| - 1]);
      10 * DigitsValue(s[..|s| - 1]) + (s[|s| - 1] as int - '0' as int)
  }

  /** `parseInt(s, 10)`: skip leading whitespace, read an optional sign and the
      longest run of decimal digits; `NaN` (here `None`) when there is none. */
  function ParseInt(s: string): (r: Option<int>)
    ensures r.None? <==> DigitRun(Unsigned(s[LeadingSpaces(s)..])) == 0
  {
    var t := s[LeadingSpaces(s)..];
    var u := Unsigned(t);
    var d := DigitRun(u);
    if d == 0 then None
    else
      var v := DigitsValue(u[..d]);
      Some(if |t| > 0 && t[0] == '-' then -(v as int) else v)
  }

  /** The text after an optional leading `+` or `-`. */
  function Unsigned(t: string): (u: string)
    ensures |u| <= |t|
  {
    if |t| > 0 && (t[0] == '-' || t[0] == '+') then t[1..] else t
  }

  /** Decimal digits of a natural number, without leading zeros. */
  function ShowNat(n: nat): (r: string)
    ensures |r| >= 1
    ensures forall i | 0 <= i < |r| :: IsDigit(r[i])
    decreases n
  {
    var d := [('0' as int + n % 10) as char];
    if n < 10 then d else ShowNat(n / 10) + d
  }

  /** `String(n)` / `${n}` for an integer. */
  function ShowInt(n: int): (r: string)
    ensures |r| >= 1
  {
    if n < 0 then "-" + ShowNat(-n) else ShowNat(n)
  }

  /** A rendered integer is an optional minus sign followed by digits. */
  lemma ShowIntShape(n: int)
    ensures forall i | 0 <= i < |ShowInt(n)| :: ShowInt(n)[i] == '-' || IsDigit(ShowInt(n)[i])
    ensures IsDigit(ShowInt(n)[|ShowInt(n)| - 1])
  {
    if n < 0 {
      var d := ShowNat(-n);
      assert forall i | 1 <= i < |ShowInt(n)| :: ShowInt(n)[i] == d[i - 1];
    }
  }

  lemma {:induction false} DigitsValueShowNat(n: nat)
    ensures DigitsValue(ShowNat(n)) == n
    decreases n
  {
    if n >= 10 {
      DigitsValueShowNat(n / 10);
      var s := ShowNat(n);
      assert s[..|s| - 1] == ShowNat(n / 10);
    }
  }

  /** The digit run of a number's rendering stops where the rendering ends. */
  lemma DigitRunOfShown(digits: string, rest: string)
    requires forall i | 0 <= i < |digits| :: IsDigit(digits[i])
    requires |rest| == 0 || !IsDigit(rest[0])
    ensures DigitRun(digits + rest) == |digits|
    ensures (digits + rest)[..|digits|] == digits
  {
  }

  /** `parseInt` reads back what `ShowInt` writes, whatever non-digit text follows. */
  lemma ParseShowInt(n: int, rest: string)
    requires |rest| == 0 || !IsDigit(rest[0])
    ensures ParseInt(ShowInt(n) + rest) == Some(n)
  {
    var digits := ShowNat(if n < 0 then -n else n);
    DigitsValueShowNat(if n < 0 then -n else n);
    DigitRunOfShown(digits, rest);
    var s := ShowInt(n) + rest;
    assert LeadingSpaces(s) == 0 by {
      assert s[0] == '-' || IsDigit(s[0]);
    }
    assert s[LeadingSpaces(s)..] == s;
    if n < 0 {
      assert Unsigned(s) == digits + rest;
    } else {
      assert Unsigned(s) == digits + rest;
    }
  }
}

=== FILE: wrappers.dfy ===
/** Failure-compatible wrappers used across the model: `Option` stands for a
    JavaScript value that may be `undefined`/`null`/`NaN`, `Result` for a
    computation that may throw. */
module Wrappers {

  datatype Option<+T> = None | Some(value: T) {

    /** Returns the wrapped value, or `default` when absent (JavaScript `x ?? d`). */
    function GetOr(default: T): T {
      match this
      case Some(v) => v
      case None => default
    }
  }

  datatype Result<+R, +E> = Success(value: R) | Failure(error: E) {

    predicate IsFailure() {
      Failure?
    }

    function PropagateFailure<U>(): Result<U, E>
      requires Failure?
    {
      Failure(error)
    }

    function Extract(): R
      requires Success?
    {
      value
    }
  }
}
